=== FILE: README.md ===
# vastram storefront: a Dafny model of the shop's state transitions

This project models what the vastram clothing storefront does to its data
when a visitor uses the cart, the wishlist, checkout and order feedback. It
also covers the two header badges shown on every page. The database is one
immutable `Store` value:

- a product table (prices in paise, stock, sales count);
- cart lines, one per (user, product);
- wishlist entries, owned by a registered user or by an anonymous session;
- shipping addresses, orders, order items and order feedback.

Each view is a pure function from a store and a caller to a new store and an
outcome: `Ok`, `AlreadyPresent`, `NotFound`, `EmptyCart`, `Invalid`,
`LoginRequired` or `Conflict`. Rendering, messages and redirects are reduced
to that outcome.

Modules, in dependency order:

- `Tables` (tables.dfy): tables as sequences in primary-key order, queryset
  filters, `get` lookups and unique columns.
- `Catalog` (catalog.dfy): the product model's helpers (discount, stock
  counters, line totals).
- `Orders` (orders.dfy): status choices, order-id assignment and order items.
- `Storefront` (storefront.dfy): the store, the caller, the outcome, and the
  invariant `Valid` that every view keeps.
- `CartViews` (cart.dfy), `WishlistViews` (wishlist.dfy), `CheckoutView`
  (checkout.dfy), `FeedbackView` (feedback.dfy): the views.
- `ContextProcessors` (badges.dfy): the cart and wishlist badge counts.

Modelling choices, in the model's own terms:

- Money is a whole number of paise. Prices have two decimal places, so this
  is exact.
  - `discount_percentage` divides two Decimals and truncates. With at most
    ten digits per price, Decimal's 28-digit precision cannot round a
    quotient across a whole number. The model therefore uses the exact floor
    of (actual − special) × 100 / actual.
- The caller is an input: a logged-in user, or an anonymous visitor who may
  or may not have a session. A session created by the wishlist view is
  given as a parameter, `newKey`.
- The random part of an order id (twelve lowercase hex digits of a UUID) is
  a parameter, `hex`.
- Primary keys come from one shared counter, `nextId`. The database keeps
  one counter per table, but only freshness matters here.
- "At most one cart line per (user, product)" is not a database constraint.
  The cart views keep it because adding goes through get-or-create. `Valid`
  states it, and every view is proved to preserve it.
- Checkout computes the total from the cart lines. Each line keeps the
  product row it read at that time. The order loop then writes that row
  back with its sales count raised by the line quantity. `ApplySales` models
  this overwrite as written. `ApplySalesEffect` proves it equals "old sales
  count + quantity" when no two lines share a product, which `Valid`
  guarantees.
- Checkout never calls `decrease_stock`, so stock is unchanged by an order.
  The model keeps this behaviour (`CheckoutKeepsStock`,
  `CheckoutSkipsStockDecrement`).
- Wishlist removal is meant to act on the caller's own entries only. The
  code does not do that for an anonymous visitor without a session; see
  "## Findings". The other members build on the owner-scoped removal.

## Model

| member | source | states |
|---|---|---|
| Catalog.DiscountPercentage | vastramapp/models.py:36-39 | 0 when either price is 0 or the special price is not below the actual price; otherwise the largest r with r·actual ≤ (actual − special)·100, i.e. the truncated percentage, which is at most 99 |
| Catalog.DecreaseStock | vastramapp/models.py:41-48 | applied exactly when stock ≥ quantity; then stock falls and sales count rises by the quantity; otherwise nothing changes, so stock never goes below zero; other fields are kept |
| Catalog.IncreaseStock | vastramapp/models.py:50-53 | stock rises by the quantity; every other field, the sales count included, is kept |
| Catalog.SellThenRestock | vastramapp/models.py:41-53 | a successful decrease followed by an increase of the same quantity restores the product except for the sales count, which keeps the sale |
| Catalog.LineTotal | vastramapp/models.py:90-93 | a cart line total is price × quantity, and is 0 exactly when one of the two is 0 |
| Orders.ItemTotal | vastramapp/models.py:148-151 | an order item's total is its snapshot price × its quantity |
| Orders.StatusCode | vastramapp/models.py:118-124 | every status has a non-empty stored code that fits the 20-character column |
| Orders.StatusRoundTrip | vastramapp/models.py:118-124 | every status is read back from its stored code, so stored statuses are always among the five choices |
| Orders.AssignOrderId | vastramapp/models.py:126-137 | an existing id is kept; an empty one becomes "TSH" plus the twelve digits upper-cased: 15 characters, within the 20-character limit, and lower-casing the digits gives back the random hex |
| Orders.Save | vastramapp/models.py:134-137 | after a save the order has an id; an order that already had one is unchanged; nothing but the id ever changes |
| Orders.SaveKeepsOrderId | vastramapp/models.py:134-137 | a second save never replaces the id the first assigned |
| Orders.NewOrder | vastramapp/models.py:130 | a newly created order has no id yet and status pending |
| CartViews.AddToCart | vastramapp/views.py:142-157 | an anonymous caller changes nothing and is sent to log in; an unknown product is not found with nothing changed; otherwise Ok, and only the cart and the row counter change |
| CartViews.AddToCartKeepsValid | vastramapp/views.py:148-155 | adding to the cart keeps the store valid, so there is still at most one line per (user, product) |
| CartViews.AddToCartQuantity | vastramapp/views.py:148-155 | the quantity of (caller, product) rises by exactly one: a new line starts at 1, an existing one goes up by 1 |
| CartViews.AddToCartFrame | vastramapp/views.py:148-155 | every line of every other (user, product) key stays exactly as it was, id included, and so does that key's quantity |
| Storefront.LinesTotalBounds | vastramapp/views.py:247 | the sum of the line totals is at least each line's total, and is 0 exactly when every line has a zero price or a zero quantity |
| CartViews.CartTotal | vastramapp/views.py:211-214 | the cart page's total is at least the total of each of the caller's lines, and is 0 exactly when each of the caller's lines has a zero price or a zero quantity |
| CartViews.AddToCartTotal | vastramapp/views.py:211-214 | the caller's cart total rises by the product's special price |
| CartViews.AddToCartOtherTotal | vastramapp/views.py:211-214 | every other user's cart lines are exactly as before, and so is their cart total |
| CartViews.UpdateCartQuantity | vastramapp/views.py:199-209 | anonymous callers are sent to log in; the row is not found exactly when the caller owns no row with that id, and then nothing changes; it is Ok exactly when the caller owns such a row; only the cart ever changes |
| CartViews.UpdateCartQuantityEffect | vastramapp/views.py:202-208 | a positive quantity is stored in that row, which keeps its id, user and product; zero or less deletes the row and leaves its key with no line; every row with another id stays exactly as it was, and every other key keeps its quantity; the store stays valid |
| CartViews.RemoveFromCart | vastramapp/views.py:192-197 | not found (and unchanged) exactly when the caller owns no row with that id, and Ok exactly when it owns one; on success exactly the rows with that id are gone; only the cart changes |
| CartViews.RemoveIsUpdateToZero | vastramapp/views.py:193-208 | removing a line is the same request as setting its quantity to zero or less |
| WishlistViews.ResolveOwner | vastramapp/views.py:162-179 | a user acts as themselves; an anonymous visitor acts as its session, and one without a session gets the new session key |
| WishlistViews.AddToWishlist | vastramapp/views.py:159-190 | an unknown product is not found, with neither store nor session changed; a visitor without a session leaves with the new session key; otherwise Ok exactly when the owner has no entry for the product, which is then appended; AlreadyPresent changes nothing |
| WishlistViews.AddToWishlistKeepsValid | vastramapp/models.py:101-102 | an add keeps one entry per (owner, product) |
| WishlistViews.AddToWishlistTwice | vastramapp/views.py:164-190 | adding the same product twice for the same visitor: the second add is AlreadyPresent and changes nothing |
| WishlistViews.RemoveFromWishlist | vastramapp/views.py:220-229 | owner-scoped removal: not found (and unchanged) exactly when the caller has no owner or owns no entry with that id; on success exactly that row is gone; only the wishlist changes |
| WishlistViews.RemoveForeignEntryFails | vastramapp/views.py:220-227 | removing an entry owned by a different identity is not found and the entry remains |
| WishlistViews.RemoveFromWishlistKeepsValid | vastramapp/models.py:101-102 | a removal keeps the store valid |
| WishlistViews.RemoveFromWishlistAsWritten | vastramapp/views.py:220-229 | the removal as coded: Ok or not found; not found changes nothing; Ok removes exactly the rows with that id |
| WishlistViews.AsWrittenAgreesWithSession | vastramapp/views.py:221-225 | for a user, or an anonymous visitor with a session, the code as written behaves like the owner-scoped removal |
| WishlistViews.AsWrittenDeletesUserEntry | vastramapp/views.py:224-227 | as written, an anonymous visitor with no session deletes any registered user's entry by its id, where the owner-scoped removal reports not found |
| WishlistViews.AsWrittenCounterexample | vastramapp/views.py:224-227 | a concrete valid store in which user 7's only entry is deleted by a visitor with no session |
| CheckoutView.Complete | vastramapp/views.py:250-259 | the form passes exactly when none of the six shipping fields, listed in form order, is empty |
| CheckoutView.ItemsFor | vastramapp/views.py:286-292 | one item per line, in order, with the line's product and quantity and the product's special price at the time of the order |
| CheckoutView.ItemsTotalMatchesLines | vastramapp/views.py:247 | the items' totals add up to the lines' total |
| CheckoutView.ApplySales | vastramapp/views.py:286-295 | the order loop's saves add no product and remove none |
| CheckoutView.ApplySalesRows | vastramapp/views.py:286-295 | for any lines, shared products included: a product no line names keeps its row; a product some line names ends up as its row read before the loop, with that row's sales count raised by the quantity of one of its lines |
| CheckoutView.ApplySalesEffect | vastramapp/views.py:286-295 | writing back each line's product row with its sales count raised gives every product its old row with the sales count raised by its total line quantity, when no two lines share a product |
| CheckoutView.Checkout | vastramapp/views.py:240-313 | anonymous: log in; an empty cart or a missing shipping field changes nothing; with a complete form the outcome is Conflict exactly when the generated order id is taken and Ok exactly when it is free; nothing changes unless Ok; on Ok exactly one order is added |
| CheckoutView.CheckoutOrder | vastramapp/views.py:247-292 | one shipping address with the caller and the submitted form is appended under a fresh key, and the existing addresses stay; the new order is appended under a fresh primary key, points at that address, belongs to the caller, is pending, has the TSH id generated from the random digits (15 characters), and its total is the cart total; one item per cart line carries its product, quantity and special price; the items total the order total |
| CheckoutView.CheckoutSales | vastramapp/views.py:293-295 | every product's sales count rises by its quantity in the caller's cart |
| CheckoutView.CheckoutKeepsStock | vastramapp/views.py:286-295 | no product is added or removed, and stock, prices and every other field but the sales count stay as they were |
| CheckoutView.CheckoutSkipsStockDecrement | vastramapp/views.py:286-295 | the recorded sale is what decrease_stock would record, except stock stays as it was |
| CheckoutView.CheckoutCart | vastramapp/views.py:298 | the caller's cart is empty afterwards, every other user's lines are exactly as before, and the wishlist and feedback are untouched |
| CheckoutView.CheckoutKeepsValid | vastramapp/views.py:266-298 | checkout keeps the store valid: unique order ids, distinct order and address keys, and every order pointing at an address of its user |
| CheckoutView.CheckoutTwice | vastramapp/views.py:242-245 | repeating a checkout straight after a success finds the cart empty and changes nothing |
| FeedbackView.SubmitFeedback | vastramapp/views.py:320-338 | anonymous: log in; not found exactly when the caller owns no order with that id; Invalid exactly when the order is found but the rating or comment is missing; Ok exactly when also the rating is non-negative and the order has no feedback yet, and then one feedback row is appended; nothing changes unless Ok |
| FeedbackView.SubmitFeedbackKeepsValid | vastramapp/models.py:162 | at most one feedback per order is kept |
| FeedbackView.SecondFeedbackRejected | vastramapp/models.py:162 | once an order has feedback, a second submission never succeeds and changes nothing |
| ContextProcessors.CartCount | vastramapp/context_processors.py:9-14 | 0 for an anonymous visitor; for a user, 0 exactly when they have no cart line; never more than the number of cart rows |
| ContextProcessors.CartCountIsProductCount | vastramapp/context_processors.py:10-11 | the cart badge is the number of distinct products in the user's cart, not the number of units |
| ContextProcessors.CartCountAfterAdd | vastramapp/context_processors.py:10-11 | adding to the cart raises the caller's badge by one only for a product not yet in the cart; other users' badges do not change |
| ContextProcessors.CartCountAfterCheckout | vastramapp/context_processors.py:10-11 | after a successful checkout the buyer's badge is 0 |
| ContextProcessors.CartCountAfterUpdate | vastramapp/context_processors.py:10-11 | setting one of the caller's lines to a positive quantity keeps the badge; zero or less lowers it by one |
| ContextProcessors.CartCountAfterRemove | vastramapp/context_processors.py:10-11 | removing one of the caller's lines lowers the badge by one |
| ContextProcessors.WishlistCount | vastramapp/context_processors.py:16-25 | 0 for an anonymous visitor without a session; otherwise 0 exactly when the owner has no entry; never more than the number of entries |
| ContextProcessors.WishlistCountIsProductCount | vastramapp/context_processors.py:17-24 | the wishlist badge is the number of distinct products on the owner's wishlist |
| ContextProcessors.WishlistCountAfterAdd | vastramapp/context_processors.py:17-24 | a successful add raises the badge of the visitor it returns by one; an add of an entry already present leaves it unchanged |
| ContextProcessors.WishlistCountAfterRemove | vastramapp/context_processors.py:17-24 | removing one of the visitor's own entries lowers its badge by one |

## Left out

- Rendering, flash messages, redirects and JSON response bodies: only the outcome of each request is modelled.
- GET requests to the checkout and cart-update views, which change nothing, and the read-only listing views (home, category, product detail, search, cart and wishlist pages, order history).
- Authentication, signup, login, logout, profile updates, `get_client_ip` and `track_user_login`: the caller's identity is an input.
- Session creation itself: the new session key is a parameter of the wishlist add.
- The randomness of `uuid.uuid4()`: its first twelve hex digits are a parameter of checkout.
- Concurrency: `F()` updates and simultaneous requests are modelled as one request at a time.
- CheckoutView.Checkout: an order-id collision is modelled as "nothing kept". The code has no explicit transaction, so the shipping address written before the failing order insert may survive; that partial write is not modelled. Other failures inside the checkout's exception handler (database errors) are not modelled.
- CheckoutView.Checkout: column widths are not modelled, so every order is Ok once the guards pass. `total_amount` has at most 10 digits with 2 decimals (vastramapp/models.py:129), so a total of 10^10 paise or more does not fit; on a database that enforces the width the order insert fails inside the exception handler, the error page is shown, and the shipping address already written stays. The upper bound of `sales_count` (vastramapp/models.py:29) is not modelled either.
- CartViews.UpdateCartQuantity: the upper bound of the positive-integer columns (cart quantity, stock, sales count, rating; vastramapp/models.py:26,29,87,163) is not modelled. Integers are unbounded, so a very large quantity is stored as given.
- CartViews.UpdateCartQuantity: takes the quantity as a number. The default of 1 for an absent field and the error on a non-numeric value are not modelled.
- FeedbackView.SubmitFeedback: takes the rating as an optional number. An absent or empty field is `None`; the error on a non-numeric value is not modelled. A negative rating is modelled as a violated column constraint. Ratings outside 1 to 5 are accepted, as in the code.
- FeedbackView.SubmitFeedback: only the POST request is modelled. A GET is refused with status 405 by the POST-only decorator (vastramapp/views.py:321) and changes nothing.
- Catalog.DecreaseStock and Catalog.IncreaseStock: the quantity is a natural number. Calls with a negative quantity are not modelled; no view makes them.
- Decimal arithmetic: prices are whole paise, and the discount is the exact truncated percentage (see above).
- Per-table primary-key counters: one shared counter stands for them.
- Deleting products, users or orders, and the cascades that follow: no modelled view deletes them.
- Admin, forms and URL configuration: declarative framework setup with no behaviour of its own.

## Findings

| source | as written | input that shows it | evidently intended | confidence | as-written member | corrected member |
|---|---|---|---|---|---|---|
| vastramapp/views.py:224-225 | an anonymous visitor's removal looks the entry up by id and by the visitor's session key, even when the visitor has no session; the key is then None, and the lookup compares the session-key column with NULL, which every registered user's entry has | a store where user 7 has wishlist entry 1; an anonymous visitor with no session requests removal of entry 1, and the entry is deleted | a visitor can only remove entries on its own wishlist; one without a session has none, so the entry is not found | not executed | WishlistViews.RemoveFromWishlistAsWritten (WishlistViews.AsWrittenDeletesUserEntry, WishlistViews.AsWrittenCounterexample) | WishlistViews.RemoveFromWishlist (WishlistViews.RemoveForeignEntryFails) |

=== FILE: badges.dfy ===
/** The header badges every page shows: how many cart lines and how many
    wishlist entries the visitor has. */
module ContextProcessors {
  import opened Tables
  import opened Catalog
  import opened Storefront
  import CartViews
  import WishlistViews
  import CheckoutView

  /** The cart badge: the number of the user's cart lines (not units); an
      anonymous visitor has no cart and sees 0. */
  function CartCount(s: Store, v: Visitor): (c: nat)
    ensures c <= |s.cart|
    ensures v.Anonymous? ==> c == 0
    ensures v.Authenticated? ==> (c == 0 <==> forall l :: l in s.cart ==> l.user != v.user)
  {
    match v
    case Anonymous(_) => 0
    case Authenticated(u) =>
      var lines := UserLines(s.cart, u);
      assert lines == [] || lines[0] in lines;
      |lines|
  }

  /** The wishlist badge: the number of entries of the owner the visitor
      acts as; an anonymous visitor without a session owns none. */
  function WishlistCount(s: Store, v: Visitor): (c: nat)
    ensures c <= |s.wishlist|
    ensures OwnerOf(v).None? ==> c == 0
    ensures OwnerOf(v).Some? ==> (c == 0 <==> forall e :: e in s.wishlist ==> e.owner != OwnerOf(v).value)
  {
    match OwnerOf(v)
    case None => 0
    case Some(o) =>
      var entries := OwnerEntries(s.wishlist, o);
      assert entries == [] || entries[0] in entries;
      |entries|
  }

  /** Adding to the cart adds a line only for a product not yet in the
      cart; adding more of a product already there leaves the badge as it
      is. Other users' badges never change. */
  lemma CartCountAfterAdd(s: Store, u: UserId, p: ProductId, w: UserId)
    requires CartValid(s.cart, s.products, s.nextId) && p in s.products
    ensures var t := CartViews.AddToCart(s, Authenticated(u), p).store;
            && CartCount(t, Authenticated(u))
               == CartCount(s, Authenticated(u)) + (if Quantity(s.cart, u, p) == 0 then 1 else 0)
            && (w != u ==> CartCount(t, Authenticated(w)) == CartCount(s, Authenticated(w)))
  {
    var t := CartViews.AddToCart(s, Authenticated(u), p).store;
    match KeyIndex(s.cart, u, p)
    case None =>
      var x := CartLine(s.nextId, u, p, 1);
      assert t.cart == s.cart + [x];
      CartViews.UserLinesAppend(s.cart, x, u);
      CartViews.UserLinesAppend(s.cart, x, w);
    case Some(i) =>
      var y := s.cart[i].(quantity := s.cart[i].quantity + 1);
      assert t.cart == s.cart[i := y];
      assert s.cart[i] in s.cart;
      var k := CartViews.UserLinesReplace(s.cart, i, y);
      if w != u {
        CartViews.UserLinesUntouched(s.cart, i, y, w);
      }
  }

  /** After a successful checkout the buyer's cart badge shows 0. */
  lemma CartCountAfterCheckout(s: Store, u: UserId, form: ShippingForm, hex: string)
    requires Valid(s) && Orders.IsUuidHex(hex)
    requires CheckoutView.Checkout(s, Authenticated(u), form, hex).outcome == Ok
    ensures CartCount(CheckoutView.Checkout(s, Authenticated(u), form, hex).store, Authenticated(u)) == 0
  {
    CheckoutView.CheckoutCart(s, u, form, hex);
  }

  /** A successful wishlist add raises the badge of the visitor it returns
      by one; an add of an entry already present leaves it as it is. */
  lemma WishlistCountAfterAdd(s: Store, v: Visitor, p: ProductId, newKey: SessionKey)
    requires p in s.products
    ensures var r := WishlistViews.AddToWishlist(s, v, p, newKey);
            WishlistCount(r.store, r.visitor)
            == WishlistCount(s, r.visitor) + (if r.outcome == Ok then 1 else 0)
  {
    var r := WishlistViews.AddToWishlist(s, v, p, newKey);
    if r.outcome == Ok {
      var o := OwnerOf(r.visitor).value;
      var x := WishlistEntry(s.nextId, o, p);
      assert r.store.wishlist == s.wishlist + [x];
      FilterAppend(s.wishlist, x, (e: WishlistEntry) => e.owner == o);
    }
  }

  /** The products user `u` has in a cart. */
  function ProductsInCart(cart: seq<CartLine>, products: map<ProductId, Product>, u: UserId): set<ProductId> {
    set p | p in products && Quantity(cart, u, p) > 0
  }

  /** The products of a user's lines are the products with a positive
      quantity in the user's cart. */
  lemma CartProducts(cart: seq<CartLine>, products: map<ProductId, Product>, nextId: RowId, u: UserId)
    requires CartValid(cart, products, nextId)
    ensures Keys(UserLines(cart, u), LineProduct) == ProductsInCart(cart, products, u)
  {
    var lines := UserLines(cart, u);
    var inCart := ProductsInCart(cart, products, u);
    forall p | p in Keys(lines, LineProduct) ensures p in inCart {
      var l :| l in lines && LineProduct(l) == p;
      QuantityOfLine(cart, l);
    }
    forall p | p in inCart ensures p in Keys(lines, LineProduct) {
      var i := KeyIndex(cart, u, p).value;
      assert cart[i] in lines;
    }
  }

  /** The cart badge counts products, not units: it is the number of
      distinct products the user has in the cart. */
  lemma CartCountIsProductCount(s: Store, u: UserId)
    requires CartValid(s.cart, s.products, s.nextId)
    ensures CartCount(s, Authenticated(u)) == |ProductsInCart(s.cart, s.products, u)|
  {
    UserLinesDistinctProducts(s.cart, u);
    DistinctKeysCount(UserLines(s.cart, u), LineProduct);
    CartProducts(s.cart, s.products, s.nextId, u);
  }

  /** The products on owner `o`'s wishlist. */
  function ProductsListed(wishlist: seq<WishlistEntry>, products: map<ProductId, Product>, o: Owner): set<ProductId> {
    set p | p in products && WishlistViews.EntryIndex(wishlist, o, p).Some?
  }

  /** The products of an owner's entries are the products on the owner's
      wishlist. */
  lemma WishlistProducts(wishlist: seq<WishlistEntry>, products: map<ProductId, Product>, nextId: RowId, o: Owner)
    requires WishlistValid(wishlist, products, nextId)
    ensures Keys(OwnerEntries(wishlist, o), EntryProduct) == ProductsListed(wishlist, products, o)
  {
    var entries := OwnerEntries(wishlist, o);
    var listed := ProductsListed(wishlist, products, o);
    forall p | p in Keys(entries, EntryProduct) ensures p in listed {
      var e :| e in entries && EntryProduct(e) == p;
      assert e in wishlist;
    }
    forall p | p in listed ensures p in Keys(entries, EntryProduct) {
      var i := WishlistViews.EntryIndex(wishlist, o, p).value;
      assert wishlist[i] in entries;
    }
  }

  /** The wishlist badge is the number of distinct products on the
      visitor's wishlist. */
  lemma WishlistCountIsProductCount(s: Store, v: Visitor)
    requires Valid(s) && OwnerOf(v).Some?
    ensures WishlistCount(s, v)
            == |ProductsListed(s.wishlist, s.products, OwnerOf(v).value)|
  {
    var o := OwnerOf(v).value;
    OwnerEntriesDistinctProducts(s.wishlist, o);
    DistinctKeysCount(OwnerEntries(s.wishlist, o), EntryProduct);
    WishlistProducts(s.wishlist, s.products, s.nextId, o);
  }

  /** A cart change that empties one key of `u` and keeps the others drops
      exactly one product from `u`'s products. */
  lemma ProductsInCartDrop(c1: seq<CartLine>, c2: seq<CartLine>, products: map<ProductId, Product>, u: UserId, p0: ProductId)
    requires p0 in products && Quantity(c1, u, p0) > 0 && Quantity(c2, u, p0) == 0
    requires forall p :: p != p0 ==> Quantity(c2, u, p) == Quantity(c1, u, p)
    ensures |ProductsInCart(c2, products, u)| + 1 == |ProductsInCart(c1, products, u)|
  {
    assert ProductsInCart(c2, products, u) == ProductsInCart(c1, products, u) - {p0};
  }

  /** A cart change that keeps every key of `u` non-empty or empty as it was
      keeps `u`'s products. */
  lemma ProductsInCartSame(c1: seq<CartLine>, c2: seq<CartLine>, products: map<ProductId, Product>, u: UserId)
    requires forall p :: (Quantity(c2, u, p) > 0) == (Quantity(c1, u, p) > 0)
    ensures ProductsInCart(c2, products, u) == ProductsInCart(c1, products, u)
  {
  }

  /** Setting a line's quantity to a positive number keeps the cart badge;
      zero or less deletes the line and lowers the badge by one. */
  lemma CartCountAfterUpdate(s: Store, u: UserId, l: CartLine, quantity: int)
    requires CartValid(s.cart, s.products, s.nextId) && l in s.cart && l.user == u
    ensures CartCount(CartViews.UpdateCartQuantity(s, Authenticated(u), l.id, quantity).store, Authenticated(u))
            == CartCount(s, Authenticated(u)) - (if quantity > 0 then 0 else 1)
  {
    var t := CartViews.UpdateCartQuantity(s, Authenticated(u), l.id, quantity).store;
    assert t.products == s.products;
    CartViews.UpdateCartQuantityEffect(s, u, l, quantity);
    CartCountIsProductCount(s, u);
    CartCountIsProductCount(t, u);
    QuantityOfLine(s.cart, l);
    assert forall p :: p != l.product ==> Quantity(t.cart, u, p) == Quantity(s.cart, u, p);
    if quantity > 0 {
      ProductsInCartSame(s.cart, t.cart, s.products, u);
    } else {
      ProductsInCartDrop(s.cart, t.cart, s.products, u, l.product);
    }
  }
  /** Removing one of the caller's lines lowers the cart badge by one. */
  lemma CartCountAfterRemove(s: Store, u: UserId, l: CartLine)
    requires CartValid(s.cart, s.products, s.nextId) && l in s.cart && l.user == u
    ensures CartCount(CartViews.RemoveFromCart(s, Authenticated(u), l.id).store, Authenticated(u)) + 1
            == CartCount(s, Authenticated(u))
  {
    CartViews.RemoveIsUpdateToZero(s, Authenticated(u), l.id, 0);
    CartCountAfterUpdate(s, u, l, 0);
  }

  /** Removing one of the visitor's own entries lowers the wishlist badge
      by one. */
  lemma WishlistCountAfterRemove(s: Store, v: Visitor, e: WishlistEntry)
    requires Valid(s) && e in s.wishlist && OwnerOf(v) == Some(e.owner)
    ensures WishlistCount(WishlistViews.RemoveFromWishlist(s, v, e.id).store, v) + 1 == WishlistCount(s, v)
  {
    var t := WishlistViews.RemoveFromWishlist(s, v, e.id).store;
    var o := e.owner;
    WishlistViews.RemoveFromWishlistKeepsValid(s, v, e.id);
    WishlistCountIsProductCount(s, v);
    WishlistCountIsProductCount(t, v);
    assert t.products == s.products;
    assert t.wishlist == WithoutEntry(s.wishlist, e.id);
    RemovedEntryListing(s.wishlist, e);
    ProductsListedDrop(s.wishlist, t.wishlist, s.products, o, e.product);
  }

  /** A wishlist change that takes one product off owner `o`'s list and
      keeps the others drops exactly one product from the list. */
  lemma ProductsListedDrop(w1: seq<WishlistEntry>, w2: seq<WishlistEntry>, products: map<ProductId, Product>,
                           o: Owner, p0: ProductId)
    requires p0 in products
    requires WishlistViews.EntryIndex(w1, o, p0).Some? && WishlistViews.EntryIndex(w2, o, p0).None?
    requires forall p :: p != p0 ==>
               (WishlistViews.EntryIndex(w2, o, p).Some? <==> WishlistViews.EntryIndex(w1, o, p).Some?)
    ensures |ProductsListed(w2, products, o)| + 1 == |ProductsListed(w1, products, o)|
  {
    assert ProductsListed(w2, products, o) == ProductsListed(w1, products, o) - {p0};
  }

  /** Deleting entry `e` takes its product off its owner's wishlist and
      leaves every other product of that owner listed or unlisted as before. */
  lemma RemovedEntryListing(wishlist: seq<WishlistEntry>, e: WishlistEntry)
    requires Distinct(wishlist, EntryId) && WishlistKeysUnique(wishlist) && e in wishlist
    ensures WishlistViews.EntryIndex(WithoutEntry(wishlist, e.id), e.owner, e.product).None?
    ensures forall p :: p != e.product ==>
              (WishlistViews.EntryIndex(WithoutEntry(wishlist, e.id), e.owner, p).Some?
               <==> WishlistViews.EntryIndex(wishlist, e.owner, p).Some?)
  {
    var w := WithoutEntry(wishlist, e.id);
    forall x | x in w ensures !(x.owner == e.owner && x.product == e.product) {
      assert x in wishlist;
    }
    forall p | p != e.product && WishlistViews.EntryIndex(wishlist, e.owner, p).Some?
      ensures WishlistViews.EntryIndex(w, e.owner, p).Some?
    {
      var x := wishlist[WishlistViews.EntryIndex(wishlist, e.owner, p).value];
      var j :| 0 <= j < |wishlist| && wishlist[j] == e;
      assert EntryId(wishlist[WishlistViews.EntryIndex(wishlist, e.owner, p).value]) != EntryId(wishlist[j]);
      assert x in w;
    }
  }
}

=== FILE: cart.dfy ===
/** The cart views: adding a product, setting a line's quantity, removing a
    line, and the cart page's total. Every cart view but the total needs a
    logged-in user, and touches only that user's lines. */
module CartViews {
  import opened Tables
  import opened Catalog
  import opened Storefront

  /** add_to_cart: an anonymous caller is sent to log in; an unknown product
      is not found; otherwise the caller's line for the product is created
      with quantity 1 or incremented by one. Only the cart (and the row-id
      counter) can change. */
  function AddToCart(s: Store, v: Visitor, p: ProductId): (r: Step)
    ensures v.Anonymous? ==> r == Step(s, LoginRequired)
    ensures v.Authenticated? && p !in s.products ==> r == Step(s, NotFound)
    ensures v.Authenticated? && p in s.products ==>
              r.outcome == Ok && r.store.(cart := s.cart, nextId := s.nextId) == s
  {
    match v
    case Anonymous(_) => Step(s, LoginRequired)
    case Authenticated(u) =>
      if p !in s.products then Step(s, NotFound)
      else match KeyIndex(s.cart, u, p)
        case None =>
          Step(s.(cart := s.cart + [CartLine(s.nextId, u, p, 1)], nextId := s.nextId + 1), Ok)
        case Some(i) =>
          Step(s.(cart := s.cart[i := s.cart[i].(quantity := s.cart[i].quantity + 1)]), Ok)
  }

  /** Appending a line with a fresh id and a new key keeps the cart valid. */
  lemma AppendKeepsCartValid(s: Store, x: CartLine)
    requires CartValid(s.cart, s.products, s.nextId)
    requires x.id == s.nextId && x.product in s.products && x.quantity >= 1
    requires forall l :: l in s.cart ==> !(l.user == x.user && l.product == x.product)
    ensures CartValid(s.cart + [x], s.products, s.nextId + 1)
  {
    var c := s.cart + [x];
    forall a, b | 0 <= a < b < |c| ensures LineId(c[a]) != LineId(c[b]) {
      if b == |s.cart| {
        assert s.cart[a] in s.cart;
      } else {
        assert LineId(s.cart[a]) != LineId(s.cart[b]);
      }
    }
  }

  /** Replacing a line by one with the same id and key keeps the cart valid. */
  lemma ReplaceKeepsCartValid(s: Store, i: nat, y: CartLine)
    requires CartValid(s.cart, s.products, s.nextId)
    requires i < |s.cart| && y.id == s.cart[i].id && y.user == s.cart[i].user
    requires y.product == s.cart[i].product && y.quantity >= 1
    ensures CartValid(s.cart[i := y], s.products, s.nextId)
    ensures forall l :: l in s.cart[i := y] ==> l in s.cart || l == y
  {
    var c := s.cart[i := y];
    forall k | 0 <= k < |c| ensures LineId(c[k]) == LineId(s.cart[k]) {
    }
    forall l | l in c ensures l in s.cart || l == y {
      var k :| 0 <= k < |c| && c[k] == l;
      if k != i {
        assert l == s.cart[k];
      }
    }
    assert s.cart[i] in s.cart;
  }

  /** Lines of a key other than that of row `i` are the same before and
      after row `i` is replaced. */
  lemma ReplaceFramesOtherKeys(cart: seq<CartLine>, i: nat, y: CartLine, l: CartLine)
    requires i < |cart| && y.user == cart[i].user && y.product == cart[i].product
    requires l.user != y.user || l.product != y.product
    ensures l in cart[i := y] <==> l in cart
  {
    if l in cart {
      var k :| 0 <= k < |cart| && cart[k] == l;
      assert cart[i := y][k] == l;
    }
    if l in cart[i := y] {
      var k :| 0 <= k < |cart| && cart[i := y][k] == l;
      assert cart[k] == l;
    }
  }

  /** Rows with an id other than that of row `i` are the same before and
      after row `i` is replaced by one with the same id. */
  lemma ReplaceFramesOtherIds(cart: seq<CartLine>, i: nat, y: CartLine, m: CartLine)
    requires i < |cart| && y.id == cart[i].id && m.id != y.id
    ensures m in cart[i := y] <==> m in cart
  {
    if m in cart {
      var k :| 0 <= k < |cart| && cart[k] == m;
      assert cart[i := y][k] == m;
    }
    if m in cart[i := y] {
      var k :| 0 <= k < |cart| && cart[i := y][k] == m;
      assert cart[k] == m;
    }
  }

  /** Adding to the cart keeps the store valid: in particular there is
      still at most one line per (user, product). */
  lemma AddToCartKeepsValid(s: Store, u: UserId, p: ProductId)
    requires Valid(s) && p in s.products
    ensures Valid(AddToCart(s, Authenticated(u), p).store)
  {
    var t := AddToCart(s, Authenticated(u), p).store;
    match KeyIndex(s.cart, u, p)
    case None =>
      var x := CartLine(s.nextId, u, p, 1);
      assert t.cart == s.cart + [x];
      AppendKeepsCartValid(s, x);
    case Some(i) =>
      var y := s.cart[i].(quantity := s.cart[i].quantity + 1);
      assert t.cart == s.cart[i := y];
      ReplaceKeepsCartValid(s, i, y);
  }

  /** Adding to the cart raises the caller's quantity of the product by
      exactly one: a new line starts at 1, an existing one goes up by 1. */
  lemma AddToCartQuantity(s: Store, u: UserId, p: ProductId)
    requires Valid(s) && p in s.products
    ensures Quantity(AddToCart(s, Authenticated(u), p).store.cart, u, p) == Quantity(s.cart, u, p) + 1
  {
    var t := AddToCart(s, Authenticated(u), p).store;
    AddToCartKeepsValid(s, u, p);
    match KeyIndex(s.cart, u, p)
    case None =>
      var x := CartLine(s.nextId, u, p, 1);
      assert t.cart == s.cart + [x];
      QuantityOfLine(t.cart, x);
      QuantityOfAbsent(s.cart, u, p);
    case Some(i) =>
      var y := s.cart[i].(quantity := s.cart[i].quantity + 1);
      assert t.cart == s.cart[i := y];
      assert t.cart[i] == y;
      QuantityOfLine(t.cart, y);
      QuantityOfLine(s.cart, s.cart[i]);
  }

  /** Adding to the cart leaves every line of every other (user, product)
      key as it was, id included, and so that key's quantity. */
  lemma AddToCartFrame(s: Store, u: UserId, p: ProductId, u': UserId, p': ProductId)
    requires Valid(s) && p in s.products && (u' != u || p' != p)
    ensures forall l: CartLine :: l.user == u' && l.product == p' ==>
              (l in AddToCart(s, Authenticated(u), p).store.cart <==> l in s.cart)
    ensures Quantity(AddToCart(s, Authenticated(u), p).store.cart, u', p') == Quantity(s.cart, u', p')
  {
    var t := AddToCart(s, Authenticated(u), p).store;
    AddToCartKeepsValid(s, u, p);
    match KeyIndex(s.cart, u, p)
    case None =>
      var x := CartLine(s.nextId, u, p, 1);
      assert t.cart == s.cart + [x];
      QuantityAgrees(t.cart, s.cart, u', p');
    case Some(i) =>
      var y := s.cart[i].(quantity := s.cart[i].quantity + 1);
      assert t.cart == s.cart[i := y];
      forall l: CartLine | l.user == u' && l.product == p' ensures l in t.cart <==> l in s.cart {
        ReplaceFramesOtherKeys(s.cart, i, y, l);
      }
      QuantityAgrees(t.cart, s.cart, u', p');
  }

  /** update_cart_quantity: an anonymous caller is sent to log in; a row
      that does not exist or belongs to someone else is not found; otherwise
      a positive quantity is stored and any other quantity deletes the row. */
  function UpdateCartQuantity(s: Store, v: Visitor, id: RowId, quantity: int): (r: Step)
    ensures v.Anonymous? ==> r == Step(s, LoginRequired)
    ensures v.Authenticated? ==>
              (r.outcome == NotFound <==> forall l :: l in s.cart ==> !(l.user == v.user && l.id == id))
    ensures v.Authenticated? ==>
              (r.outcome == Ok <==> exists l :: l in s.cart && l.user == v.user && l.id == id)
    ensures r.outcome != Ok ==> r.store == s
    ensures r.store.(cart := s.cart) == s
  {
    match v
    case Anonymous(_) => Step(s, LoginRequired)
    case Authenticated(u) =>
      match OwnedIndex(s.cart, u, id)
      case None => Step(s, NotFound)
      case Some(i) =>
        if quantity > 0 then
          Step(s.(cart := s.cart[i := s.cart[i].(quantity := quantity)]), Ok)
        else
          Step(s.(cart := WithoutLine(s.cart, id)), Ok)
  }

  /** Deleting a row keeps the cart valid and leaves every other row. */
  lemma DeleteKeepsCartValid(s: Store, id: RowId)
    requires CartValid(s.cart, s.products, s.nextId)
    ensures CartValid(WithoutLine(s.cart, id), s.products, s.nextId)
  {
  }

  /** Setting the quantity of the caller's row `id` (the line `l`) to a
      positive number stores that number in the row; zero or less deletes
      the row and empties the key. Every other row stays exactly as it was,
      all other keys keep their quantities and the store stays valid. */
  lemma UpdateCartQuantityEffect(s: Store, u: UserId, l: CartLine, quantity: int)
    requires CartValid(s.cart, s.products, s.nextId) && l in s.cart && l.user == u
    ensures var t := UpdateCartQuantity(s, Authenticated(u), l.id, quantity).store;
            CartValid(t.cart, t.products, t.nextId) && (Valid(s) ==> Valid(t))
    ensures quantity > 0 ==> l.(quantity := quantity) in UpdateCartQuantity(s, Authenticated(u), l.id, quantity).store.cart
    ensures forall m: CartLine :: m.id == l.id ==>
              (m in UpdateCartQuantity(s, Authenticated(u), l.id, quantity).store.cart <==>
                 quantity > 0 && m == l.(quantity := quantity))
    ensures forall m: CartLine :: m.id != l.id ==>
              (m in UpdateCartQuantity(s, Authenticated(u), l.id, quantity).store.cart <==> m in s.cart)
    ensures quantity > 0 ==>
              Quantity(UpdateCartQuantity(s, Authenticated(u), l.id, quantity).store.cart, u, l.product) == quantity
    ensures quantity <= 0 ==>
              Quantity(UpdateCartQuantity(s, Authenticated(u), l.id, quantity).store.cart, u, l.product) == 0
    ensures forall u', p' :: u' != u || p' != l.product ==>
              Quantity(UpdateCartQuantity(s, Authenticated(u), l.id, quantity).store.cart, u', p')
              == Quantity(s.cart, u', p')
  {
    var t := UpdateCartQuantity(s, Authenticated(u), l.id, quantity).store;
    var i := OwnedIndex(s.cart, u, l.id).value;
    assert s.cart[i] == l by {
      assert s.cart[i] in s.cart;
      assert LineId(s.cart[i]) == LineId(l);
    }
    if quantity > 0 {
      var y := l.(quantity := quantity);
      assert t.cart == s.cart[i := y];
      ReplaceKeepsCartValid(s, i, y);
      assert t.cart[i] == y;
      forall m: CartLine | m.id != l.id ensures m in t.cart <==> m in s.cart {
        ReplaceFramesOtherIds(s.cart, i, y, m);
      }
      forall m: CartLine | m.id == l.id && m in t.cart ensures m == y {
        assert LineId(m) == LineId(y);
      }
      QuantityOfLine(t.cart, y);
      forall u', p' | u' != u || p' != l.product
        ensures Quantity(t.cart, u', p') == Quantity(s.cart, u', p')
      {
        forall m: CartLine | m.user == u' && m.product == p' ensures m in t.cart <==> m in s.cart {
          ReplaceFramesOtherKeys(s.cart, i, y, m);
        }
        QuantityAgrees(t.cart, s.cart, u', p');
      }
    } else {
      assert t.cart == WithoutLine(s.cart, l.id);
      DeleteKeepsCartValid(s, l.id);
      forall m | m in t.cart ensures !(m.user == u && m.product == l.product) {
        assert m in s.cart;
      }
      QuantityOfAbsent(t.cart, u, l.product);
      forall u', p' | u' != u || p' != l.product
        ensures Quantity(t.cart, u', p') == Quantity(s.cart, u', p')
      {
        forall m: CartLine | m.user == u' && m.product == p' ensures m in t.cart <==> m in s.cart {
        }
        QuantityAgrees(t.cart, s.cart, u', p');
      }
    }
  }

  /** remove_from_cart: deletes the caller's row `id`; a row that does not
      exist or belongs to someone else is not found. */
  function RemoveFromCart(s: Store, v: Visitor, id: RowId): (r: Step)
    ensures v.Anonymous? ==> r == Step(s, LoginRequired)
    ensures v.Authenticated? ==>
              (r.outcome == NotFound <==> forall l :: l in s.cart ==> !(l.user == v.user && l.id == id))
    ensures v.Authenticated? ==>
              (r.outcome == Ok <==> exists l :: l in s.cart && l.user == v.user && l.id == id)
    ensures r.outcome != Ok ==> r.store == s
    ensures r.outcome == Ok ==> forall l :: l in r.store.cart <==> l in s.cart && l.id != id
    ensures r.store.(cart := s.cart) == s
  {
    match v
    case Anonymous(_) => Step(s, LoginRequired)
    case Authenticated(u) =>
      match OwnedIndex(s.cart, u, id)
      case None => Step(s, NotFound)
      case Some(_) => Step(s.(cart := WithoutLine(s.cart, id)), Ok)
  }

  /** Removing a line is the same request as setting its quantity to zero. */
  lemma RemoveIsUpdateToZero(s: Store, v: Visitor, id: RowId, quantity: int)
    requires quantity <= 0
    ensures RemoveFromCart(s, v, id) == UpdateCartQuantity(s, v, id, quantity)
  {
  }

  /** cart_view's total: the sum of the line totals of the caller's lines. */
  function CartTotal(s: Store, u: UserId): (r: Paise)
    requires CartRefs(s.cart, s.products)
    ensures forall l :: l in s.cart && l.user == u ==> LineTotal(s.products[l.product].specialPrice, l.quantity) <= r
    ensures r == 0 <==> forall l :: l in s.cart && l.user == u ==> s.products[l.product].specialPrice == 0 || l.quantity == 0
  {
    LinesTotalBounds(UserLines(s.cart, u), s.products);
    LinesTotal(UserLines(s.cart, u), s.products)
  }

  /** Replacing line `k` of some lines changes their total by the
      difference of the two line totals. */
  lemma {:induction false} LinesTotalReplace(lines: seq<CartLine>, k: nat, y: CartLine, products: map<ProductId, Product>)
    requires CartRefs(lines, products) && k < |lines| && y.product in products
    ensures CartRefs(lines[k := y], products)
    ensures LinesTotal(lines[k := y], products) + LineTotal(products[lines[k].product].specialPrice, lines[k].quantity)
            == LinesTotal(lines, products) + LineTotal(products[y.product].specialPrice, y.quantity)
  {
    assert CartRefs(lines[k := y], products) by {
      forall l | l in lines[k := y] ensures l.product in products {
        var j :| 0 <= j < |lines| && lines[k := y][j] == l;
        if j != k {
          assert lines[j] == l;
        }
      }
    }
    if k == 0 {
      assert lines[k := y][1..] == lines[1..];
    } else {
      assert lines[k := y][1..] == lines[1..][k - 1 := y];
      LinesTotalReplace(lines[1..], k - 1, y, products);
    }
  }

  /** Adding a product to the cart raises the caller's cart total by its
      special price. */
  lemma AddToCartTotal(s: Store, u: UserId, p: ProductId)
    requires CartRefs(s.cart, s.products) && p in s.products
    ensures CartRefs(AddToCart(s, Authenticated(u), p).store.cart, s.products)
    ensures CartTotal(AddToCart(s, Authenticated(u), p).store, u) == CartTotal(s, u) + s.products[p].specialPrice
  {
    var t := AddToCart(s, Authenticated(u), p).store;
    match KeyIndex(s.cart, u, p)
    case None =>
      var x := CartLine(s.nextId, u, p, 1);
      assert t.products == s.products && t.cart == s.cart + [x];
      AppendedLineTotal(s, t, x);
    case Some(i) =>
      var y := s.cart[i].(quantity := s.cart[i].quantity + 1);
      assert t.products == s.products && t.cart == s.cart[i := y];
      ReplacedLineTotal(s, t, i, y);
      OneMoreUnit(s.products[p].specialPrice, s.cart[i].quantity);
  }

  /** Adding a product to the cart leaves every other user's lines, and so
      their cart total, as they were. */
  lemma AddToCartOtherTotal(s: Store, u: UserId, p: ProductId, w: UserId)
    requires CartRefs(s.cart, s.products) && p in s.products && w != u
    ensures UserLines(AddToCart(s, Authenticated(u), p).store.cart, w) == UserLines(s.cart, w)
    ensures CartRefs(AddToCart(s, Authenticated(u), p).store.cart, s.products)
    ensures CartTotal(AddToCart(s, Authenticated(u), p).store, w) == CartTotal(s, w)
  {
    var t := AddToCart(s, Authenticated(u), p).store;
    match KeyIndex(s.cart, u, p)
    case None =>
      var x := CartLine(s.nextId, u, p, 1);
      assert t.products == s.products && t.cart == s.cart + [x];
      UserLinesAppend(s.cart, x, w);
      AppendedLineOtherTotal(s, t, x, w);
    case Some(i) =>
      var y := s.cart[i].(quantity := s.cart[i].quantity + 1);
      assert t.products == s.products && t.cart == s.cart[i := y];
      assert s.cart[i] in s.cart;
      UserLinesUntouched(s.cart, i, y, w);
      ReplacedLineOtherTotal(s, t, i, y, w);
  }

  lemma OneMoreUnit(price: Paise, quantity: nat)
    ensures LineTotal(price, quantity + 1) == LineTotal(price, quantity) + price
  {
    assert price * (quantity + 1) == price * quantity + price;
  }

  lemma AppendedLineTotal(s: Store, t: Store, x: CartLine)
    requires CartRefs(s.cart, s.products) && x.product in s.products
    requires t.products == s.products && t.cart == s.cart + [x]
    ensures CartRefs(t.cart, t.products)
    ensures CartTotal(t, x.user) == CartTotal(s, x.user) + LineTotal(s.products[x.product].specialPrice, x.quantity)
  {
    UserLinesAppend(s.cart, x, x.user);
    LinesTotalAppend(UserLines(s.cart, x.user), [x], s.products);
  }

  lemma AppendedLineOtherTotal(s: Store, t: Store, x: CartLine, w: UserId)
    requires CartRefs(s.cart, s.products) && x.product in s.products
    requires t.products == s.products && t.cart == s.cart + [x] && w != x.user
    ensures CartRefs(t.cart, t.products)
    ensures CartTotal(t, w) == CartTotal(s, w)
  {
    UserLinesAppend(s.cart, x, w);
    assert UserLines(t.cart, w) == UserLines(s.cart, w);
  }

  lemma UserLinesAppend(cart: seq<CartLine>, x: CartLine, w: UserId)
    ensures UserLines(cart + [x], w) == UserLines(cart, w) + (if x.user == w then [x] else [])
  {
    FilterAppend(cart, x, (l: CartLine) => l.user == w);
  }

  lemma ReplacedLineTotal(s: Store, t: Store, i: nat, y: CartLine)
    requires CartRefs(s.cart, s.products)
    requires i < |s.cart| && y.user == s.cart[i].user && y.product == s.cart[i].product
    requires t.products == s.products && t.cart == s.cart[i := y]
    ensures CartRefs(t.cart, t.products)
    ensures CartTotal(t, y.user) + LineTotal(s.products[y.product].specialPrice, s.cart[i].quantity)
            == CartTotal(s, y.user) + LineTotal(s.products[y.product].specialPrice, y.quantity)
  {
    assert s.cart[i] in s.cart;
    var k := UserLinesReplace(s.cart, i, y);
    LinesTotalReplace(UserLines(s.cart, y.user), k, y, s.products);
  }

  lemma ReplacedLineOtherTotal(s: Store, t: Store, i: nat, y: CartLine, w: UserId)
    requires CartRefs(s.cart, s.products)
    requires i < |s.cart| && y.user == s.cart[i].user && y.product == s.cart[i].product
    requires t.products == s.products && t.cart == s.cart[i := y] && w != y.user
    ensures CartRefs(t.cart, t.products)
    ensures CartTotal(t, w) == CartTotal(s, w)
  {
    assert s.cart[i] in s.cart;
    UserLinesUntouched(s.cart, i, y, w);
  }

  /** Replacing one of `u`'s lines by another of `u`'s lines replaces it at
      some position of `u`'s filtered lines. */
  lemma {:induction false} UserLinesReplace(cart: seq<CartLine>, i: nat, y: CartLine) returns (k: nat)
    requires i < |cart| && y.user == cart[i].user
    ensures k < |UserLines(cart, y.user)|
    ensures UserLines(cart, y.user)[k] == cart[i]
    ensures UserLines(cart[i := y], y.user) == UserLines(cart, y.user)[k := y]
  {
    var u := y.user;
    if i == 0 {
      assert cart[i := y][1..] == cart[1..];
      k := 0;
    } else {
      assert cart[i := y][1..] == cart[1..][i - 1 := y];
      assert cart[i := y][0] == cart[0];
      var k' := UserLinesReplace(cart[1..], i - 1, y);
      k := if cart[0].user == u then k' + 1 else k';
    }
  }

  /** Replacing a line of one user leaves every other user's lines alone. */
  lemma {:induction false} UserLinesUntouched(cart: seq<CartLine>, i: nat, y: CartLine, w: UserId)
    requires i < |cart| && y.user == cart[i].user && w != y.user
    ensures UserLines(cart[i := y], w) == UserLines(cart, w)
  {
    if i == 0 {
      assert cart[i := y][1..] == cart[1..];
    } else {
      assert cart[i := y][1..] == cart[1..][i - 1 := y];
      UserLinesUntouched(cart[1..], i - 1, y, w);
    }
  }
}

=== FILE: catalog.dfy ===
/** The catalogue: products, their derived discount, the guarded stock
    counters and the price of one cart or order line. Money is held in
    integer minor units (paise), so decimal prices with two places are exact. */
module Catalog {

  type ProductId = nat

  /** An amount of money in paise. */
  type Paise = nat

  /** A product row. `stock` and `salesCount` are non-negative counters;
      the discount is derived from the two prices and never stored. */
  datatype Product = Product(
    category: nat,
    actualPrice: Paise,
    specialPrice: Paise,
    stock: nat,
    salesCount: nat,
    isActive: bool)

  /** The whole-number percentage by which the special price undercuts the
      actual price, truncated toward zero; 0 when there is no discount or
      either price is zero. */
  function DiscountPercentage(p: Product): (r: nat)
    ensures p.actualPrice == 0 || p.specialPrice == 0 || p.actualPrice <= p.specialPrice ==> r == 0
    ensures 0 < p.specialPrice < p.actualPrice ==>
              r * p.actualPrice <= (p.actualPrice - p.specialPrice) * 100 < (r + 1) * p.actualPrice
    ensures r <= 99
  {
    if p.actualPrice != 0 && p.specialPrice != 0 && p.actualPrice > p.specialPrice then
      TruncatedPercent(p.actualPrice, p.specialPrice)
    else
      0
  }

  /** floor((actual - special) * 100 / actual) for a real discount. */
  function TruncatedPercent(actual: nat, special: nat): (r: nat)
    requires 0 < special < actual
    ensures r * actual <= (actual - special) * 100 < (r + 1) * actual
    ensures r <= 99
  {
    var n := (actual - special) * 100;
    FloorDivision(n, actual);
    CancelFactor(n / actual, 100, actual);
    n / actual
  }

  lemma FloorDivision(n: nat, a: nat)
    requires a > 0
    ensures (n / a) * a <= n < (n / a + 1) * a
  {
    assert n == (n / a) * a + n % a;
  }

  lemma CancelFactor(x: nat, y: nat, a: nat)
    requires a > 0 && x * a < y * a
    ensures x < y
  {
    if x >= y {
      MultiplyMonotone(y, x, a);
    }
  }

  lemma MultiplyMonotone(y: nat, x: nat, a: nat)
    requires y <= x
    ensures y * a <= x * a
  {
  }

  /** Outcome of a guarded stock change: the product afterwards and whether
      the change was applied. */
  datatype StockUpdate = StockUpdate(product: Product, applied: bool)

  /** Product.decrease_stock: sell `quantity` units when that many are in
      stock; otherwise refuse and change nothing. */
  function DecreaseStock(p: Product, quantity: nat): (r: StockUpdate)
    ensures r.applied <==> quantity <= p.stock
    ensures r.applied ==> r.product.stock + quantity == p.stock
    ensures r.applied ==> r.product.salesCount == p.salesCount + quantity
    ensures !r.applied ==> r.product == p
    ensures r.product.(stock := p.stock, salesCount := p.salesCount) == p
  {
    if p.stock >= quantity then
      StockUpdate(p.(stock := p.stock - quantity, salesCount := p.salesCount + quantity), true)
    else
      StockUpdate(p, false)
  }

  /** Product.increase_stock: restock unconditionally. */
  function IncreaseStock(p: Product, quantity: nat): (r: Product)
    ensures r.stock - quantity == p.stock
    ensures r.(stock := p.stock) == p
  {
    p.(stock := p.stock + quantity)
  }

  /** Restocking what was just sold restores the stock; only the sale count
      remembers it. */
  lemma SellThenRestock(p: Product, quantity: nat)
    requires quantity <= p.stock
    ensures IncreaseStock(DecreaseStock(p, quantity).product, quantity)
            == p.(salesCount := p.salesCount + quantity)
  {
  }

  /** After a restock of `quantity`, selling `quantity` always succeeds. */
  lemma RestockThenSell(p: Product, quantity: nat)
    ensures DecreaseStock(IncreaseStock(p, quantity), quantity).applied
    ensures DecreaseStock(IncreaseStock(p, quantity), quantity).product.stock == p.stock
  {
  }

  /** Cart.total_price and OrderItem.total_price: the unit price times the
      quantity, with the source's guard that answers 0 when either is zero. */
  function LineTotal(price: Paise, quantity: nat): (r: Paise)
    ensures r == price * quantity
    ensures r == 0 <==> price == 0 || quantity == 0
  {
    if price != 0 && quantity != 0 then price * quantity else 0
  }
}

=== FILE: checkout.dfy ===
/** The checkout view: the one request that changes several tables
    together. It turns the caller's cart into an order with one item per
    line, records the sale on each product, and empties the caller's cart.
    Stock is not touched: checkout never calls the stock-decrement helper. */
module CheckoutView {
  import opened Tables
  import opened Catalog
  import opened Orders
  import opened Storefront
  import CartViews

  /** The six shipping fields in form order. */
  function Fields(f: ShippingForm): seq<string> {
    [f.fullName, f.phone, f.address, f.city, f.state, f.pincode]
  }

  /** Every shipping field was supplied and is non-empty: `all` over the
      list of the six fields. */
  function Complete(f: ShippingForm): (r: bool)
    ensures r <==> "" !in Fields(f)
  {
    f.fullName != "" && f.phone != "" && f.address != "" && f.city != "" && f.state != "" && f.pincode != ""
  }

  /** One order item per line, in line order, each carrying the line's
      product and quantity and the product's special price in `snapshot`. */
  function ItemsFor(lines: seq<CartLine>, snapshot: map<ProductId, Product>, order: RowId): (items: seq<OrderItem>)
    requires CartRefs(lines, snapshot)
    ensures |items| == |lines|
    ensures forall k :: 0 <= k < |lines| ==>
              && items[k].order == order
              && items[k].product == lines[k].product
              && items[k].quantity == lines[k].quantity
              && items[k].price == snapshot[lines[k].product].specialPrice
  {
    if lines == [] then []
    else
      [OrderItem(order, lines[0].product, lines[0].quantity, snapshot[lines[0].product].specialPrice)]
      + ItemsFor(lines[1..], snapshot, order)
  }

  /** The items of an order total what their lines cost at the snapshot. */
  lemma {:induction false} ItemsTotalMatchesLines(lines: seq<CartLine>, snapshot: map<ProductId, Product>, order: RowId)
    requires CartRefs(lines, snapshot)
    ensures ItemsTotal(ItemsFor(lines, snapshot, order)) == LinesTotal(lines, snapshot)
  {
    if lines != [] {
      var items := ItemsFor(lines, snapshot, order);
      assert items[1..] == ItemsFor(lines[1..], snapshot, order);
      ItemsTotalMatchesLines(lines[1..], snapshot, order);
    }
  }

  /** The product table after the order loop. For each line in turn, the
      line's product is the instance read from `snapshot` when the total was
      computed; its sales count is raised by the line's quantity and the
      whole row is saved over the current one. */
  function ApplySales(lines: seq<CartLine>, snapshot: map<ProductId, Product>, products: map<ProductId, Product>): (r: map<ProductId, Product>)
    requires CartRefs(lines, snapshot) && CartRefs(lines, products)
    ensures r.Keys == products.Keys
  {
    if lines == [] then products
    else
      var p := snapshot[lines[0].product];
      ApplySales(lines[1..], snapshot, products[lines[0].product := p.(salesCount := p.salesCount + lines[0].quantity)])
  }

  /** What the order loop leaves in each product row, whether or not two
      lines share a product: a product no line names keeps its row, and a
      product some line names ends up as its `snapshot` row with the sales
      count of that snapshot raised by the quantity of one of its lines (the
      last one saved wins). */
  lemma {:induction false} ApplySalesRows(lines: seq<CartLine>, snapshot: map<ProductId, Product>, products: map<ProductId, Product>, p: ProductId)
    requires CartRefs(lines, snapshot) && CartRefs(lines, products)
    requires p in products
    ensures (forall l :: l in lines ==> l.product != p) ==> ApplySales(lines, snapshot, products)[p] == products[p]
    ensures (exists l :: l in lines && l.product == p) ==>
              exists m :: m in lines && m.product == p
                && ApplySales(lines, snapshot, products)[p] == snapshot[p].(salesCount := snapshot[p].salesCount + m.quantity)
  {
    if lines != [] {
      var l0 := lines[0];
      var q := snapshot[l0.product];
      var products1 := products[l0.product := q.(salesCount := q.salesCount + l0.quantity)];
      assert ApplySales(lines, snapshot, products) == ApplySales(lines[1..], snapshot, products1);
      ApplySalesRows(lines[1..], snapshot, products1, p);
      if !exists l :: l in lines[1..] && l.product == p {
        if l0.product == p {
          assert l0 in lines;
        }
      } else {
        var m :| m in lines[1..] && m.product == p
                 && ApplySales(lines, snapshot, products)[p] == snapshot[p].(salesCount := snapshot[p].salesCount + m.quantity);
        assert m in lines;
      }
    }
  }

  /** The total quantity of product `p` over some lines. */
  function SumQuantity(lines: seq<CartLine>, p: ProductId): nat {
    if lines == [] then 0
    else (if lines[0].product == p then lines[0].quantity else 0) + SumQuantity(lines[1..], p)
  }

  lemma {:induction false} SumQuantityAbsent(lines: seq<CartLine>, p: ProductId)
    requires forall l :: l in lines ==> l.product != p
    ensures SumQuantity(lines, p) == 0
  {
    if lines != [] {
      SumQuantityAbsent(lines[1..], p);
    }
  }

  lemma {:induction false} SumQuantityOfDistinct(lines: seq<CartLine>, l: CartLine)
    requires Distinct(lines, LineProduct) && l in lines
    ensures SumQuantity(lines, l.product) == l.quantity
  {
    var rest := lines[1..];
    if lines[0] == l {
      forall m | m in rest ensures m.product != l.product {
        var j :| 0 <= j < |rest| && rest[j] == m;
        assert LineProduct(lines[0]) != LineProduct(lines[j + 1]);
      }
      SumQuantityAbsent(rest, l.product);
    } else {
      assert l in rest;
      var j :| 0 <= j < |rest| && rest[j] == l;
      assert LineProduct(lines[0]) != LineProduct(lines[j + 1]);
      assert Distinct(rest, LineProduct) by {
        forall a, b | 0 <= a < b < |rest| ensures LineProduct(rest[a]) != LineProduct(rest[b]) {
          assert rest[a] == lines[a + 1] && rest[b] == lines[b + 1];
        }
      }
      SumQuantityOfDistinct(rest, l);
    }
  }

  /** When no two lines share a product, the loop's overwrite-from-snapshot
      saves add up: every product's row is its row before the loop with the
      sales count raised by the product's total line quantity. */
  lemma {:induction false} ApplySalesEffect(lines: seq<CartLine>, snapshot: map<ProductId, Product>, products: map<ProductId, Product>, p: ProductId)
    requires CartRefs(lines, snapshot) && CartRefs(lines, products)
    requires Distinct(lines, LineProduct)
    requires forall l :: l in lines ==> products[l.product] == snapshot[l.product]
    requires p in products
    ensures ApplySales(lines, snapshot, products)[p]
            == products[p].(salesCount := products[p].salesCount + SumQuantity(lines, p))
  {
    if lines != [] {
      var l0 := lines[0];
      var rest := lines[1..];
      var q := snapshot[l0.product];
      var products1 := products[l0.product := q.(salesCount := q.salesCount + l0.quantity)];
      forall m | m in rest ensures m.product != l0.product {
        var j :| 0 <= j < |rest| && rest[j] == m;
        assert LineProduct(lines[0]) != LineProduct(lines[j + 1]);
      }
      assert Distinct(rest, LineProduct) by {
        forall a, b | 0 <= a < b < |rest| ensures LineProduct(rest[a]) != LineProduct(rest[b]) {
          assert rest[a] == lines[a + 1] && rest[b] == lines[b + 1];
        }
      }
      ApplySalesEffect(rest, snapshot, products1, p);
      if p == l0.product {
        SumQuantityAbsent(rest, p);
      }
    }
  }

  /** A product's quantity over a user's lines is its cart quantity. */
  lemma SumQuantityIsQuantity(cart: seq<CartLine>, u: UserId, p: ProductId)
    requires CartUnique(cart)
    ensures SumQuantity(UserLines(cart, u), p) == Quantity(cart, u, p)
  {
    var lines := UserLines(cart, u);
    UserLinesDistinctProducts(cart, u);
    match KeyIndex(cart, u, p)
    case None =>
      SumQuantityAbsent(lines, p);
    case Some(i) =>
      assert cart[i] in lines;
      SumQuantityOfDistinct(lines, cart[i]);
  }

  /** The order id a checkout would give its order. */
  function NewOrderId(hex: string): (id: string)
    requires IsUuidHex(hex)
  {
    AssignOrderId("", hex)
  }

  /** The order id is already taken by an existing order. */
  predicate OrderIdTaken(s: Store, id: string) {
    exists o :: o in s.orders && o.orderId == id
  }

  /** checkout_view on submission. The guards come first and change
      nothing: an anonymous caller is sent to log in, an empty cart is
      refused, and so is a form with a missing field. A generated order id
      that is already taken violates the unique column and nothing is kept.
      Otherwise the shipping address, the order (total = the cart total,
      status pending) and one item per line are created, each line's product
      records the sale, and the caller's lines are deleted. */
  function Checkout(s: Store, v: Visitor, form: ShippingForm, hex: string): (r: Step)
    requires CartRefs(s.cart, s.products) && IsUuidHex(hex)
    ensures v.Anonymous? ==> r == Step(s, LoginRequired)
    ensures v.Authenticated? && UserLines(s.cart, v.user) == [] ==> r == Step(s, EmptyCart)
    ensures v.Authenticated? && UserLines(s.cart, v.user) != [] && !Complete(form) ==> r == Step(s, Invalid)
    ensures v.Authenticated? && UserLines(s.cart, v.user) != [] && Complete(form) ==>
              && (r.outcome == Conflict <==> OrderIdTaken(s, NewOrderId(hex)))
              && (r.outcome == Ok <==> !OrderIdTaken(s, NewOrderId(hex)))
    ensures r.outcome != Ok ==> r.store == s
    ensures r.outcome == Ok ==> |r.store.orders| == |s.orders| + 1
  {
    match v
    case Anonymous(_) => Step(s, LoginRequired)
    case Authenticated(u) =>
      var lines := UserLines(s.cart, u);
      if lines == [] then Step(s, EmptyCart)
      else
        var total := LinesTotal(lines, s.products);
        if !Complete(form) then Step(s, Invalid)
        else
          var address := ShippingAddress(s.nextId, u, form);
          var order := Save(NewOrder(s.nextId + 1, u, address.id, total), hex);
          if OrderIdTaken(s, order.orderId) then Step(s, Conflict)
          else
            Step(s.(products := ApplySales(lines, s.products, s.products),
                    cart := OtherLines(s.cart, u),
                    addresses := s.addresses + [address],
                    orders := s.orders + [order],
                    items := s.items + ItemsFor(lines, s.products, order.id),
                    nextId := s.nextId + 2),
                 Ok)
  }

  /** The order a successful checkout creates, and its items. */
  lemma CheckoutOrder(s: Store, u: UserId, form: ShippingForm, hex: string)
    requires Valid(s) && IsUuidHex(hex)
    requires Checkout(s, Authenticated(u), form, hex).outcome == Ok
    ensures var t := Checkout(s, Authenticated(u), form, hex).store;
            var o := t.orders[|s.orders|];
            var lines := UserLines(s.cart, u);
            && t.orders == s.orders + [o]
            && o.user == u && o.status == Pending
            && (forall o' :: o' in s.orders ==> o'.id != o.id)
            && o.orderId == NewOrderId(hex)
            && t.addresses == s.addresses + [ShippingAddress(o.shipping, u, form)]
            && (forall a :: a in s.addresses ==> a.id != o.shipping)
            && o.total == CartViews.CartTotal(s, u)
            && o.orderId[..|OrderIdPrefix|] == OrderIdPrefix && |o.orderId| == 15
            && |t.items| == |s.items| + |lines|
            && t.items[..|s.items|] == s.items
            && (forall k :: 0 <= k < |lines| ==>
                  && t.items[|s.items| + k].order == o.id
                  && t.items[|s.items| + k].product == lines[k].product
                  && t.items[|s.items| + k].quantity == lines[k].quantity
                  && t.items[|s.items| + k].price == s.products[lines[k].product].specialPrice)
            && ItemsTotal(t.items[|s.items|..]) == o.total
  {
    var t := Checkout(s, Authenticated(u), form, hex).store;
    var lines := UserLines(s.cart, u);
    var o := t.orders[|s.orders|];
    var items := ItemsFor(lines, s.products, o.id);
    assert t.items == s.items + items;
    assert t.items[|s.items|..] == items;
    ItemsTotalMatchesLines(lines, s.products, o.id);
  }

  /** After a successful checkout every product's sales count has risen by
      its quantity in the caller's cart. */
  lemma CheckoutSales(s: Store, u: UserId, form: ShippingForm, hex: string, p: ProductId)
    requires Valid(s) && IsUuidHex(hex)
    requires Checkout(s, Authenticated(u), form, hex).outcome == Ok
    requires p in s.products
    ensures var t := Checkout(s, Authenticated(u), form, hex).store;
            p in t.products && t.products[p].salesCount == s.products[p].salesCount + Quantity(s.cart, u, p)
  {
    CheckoutProduct(s, u, form, hex, p);
  }

  /** A successful checkout adds or removes no product and changes nothing
      of any product but its sales count: stock and prices stay as they
      were. */
  lemma CheckoutKeepsStock(s: Store, u: UserId, form: ShippingForm, hex: string, p: ProductId)
    requires Valid(s) && IsUuidHex(hex)
    requires Checkout(s, Authenticated(u), form, hex).outcome == Ok
    requires p in s.products
    ensures var t := Checkout(s, Authenticated(u), form, hex).store;
            && t.products.Keys == s.products.Keys
            && t.products[p].stock == s.products[p].stock
            && t.products[p].(salesCount := s.products[p].salesCount) == s.products[p]
  {
    CheckoutProduct(s, u, form, hex, p);
  }

  /** A product's row after a successful checkout. */
  lemma CheckoutProduct(s: Store, u: UserId, form: ShippingForm, hex: string, p: ProductId)
    requires Valid(s) && IsUuidHex(hex)
    requires Checkout(s, Authenticated(u), form, hex).outcome == Ok
    requires p in s.products
    ensures var t := Checkout(s, Authenticated(u), form, hex).store;
            && t.products.Keys == s.products.Keys
            && t.products[p] == s.products[p].(salesCount := s.products[p].salesCount + Quantity(s.cart, u, p))
  {
    var t := Checkout(s, Authenticated(u), form, hex).store;
    var lines := UserLines(s.cart, u);
    assert t.products == ApplySales(lines, s.products, s.products);
    UserLinesDistinctProducts(s.cart, u);
    ApplySalesEffect(lines, s.products, s.products, p);
    SumQuantityIsQuantity(s.cart, u, p);
  }

  /** After a successful checkout the caller's cart is empty and every other
      user's cart is exactly as it was; the wishlist and feedback tables are
      untouched. */
  lemma CheckoutCart(s: Store, u: UserId, form: ShippingForm, hex: string)
    requires Valid(s) && IsUuidHex(hex)
    requires Checkout(s, Authenticated(u), form, hex).outcome == Ok
    ensures var t := Checkout(s, Authenticated(u), form, hex).store;
            && UserLines(t.cart, u) == []
            && (forall u' :: u' != u ==> UserLines(t.cart, u') == UserLines(s.cart, u'))
            && t.wishlist == s.wishlist && t.feedback == s.feedback
  {
    var t := Checkout(s, Authenticated(u), form, hex).store;
    assert t.cart == OtherLines(s.cart, u);
    FilterNone(t.cart, (l: CartLine) => l.user == u);
    forall u' | u' != u ensures UserLines(t.cart, u') == UserLines(s.cart, u') {
      FilterFilter(s.cart, (l: CartLine) => l.user != u, (l: CartLine) => l.user == u');
    }
  }

  /** Checkout keeps the store valid. */
  lemma CheckoutKeepsValid(s: Store, v: Visitor, form: ShippingForm, hex: string)
    requires Valid(s) && IsUuidHex(hex)
    ensures Valid(Checkout(s, v, form, hex).store)
  {
    var r := Checkout(s, v, form, hex);
    if r.outcome == Ok {
      var u := v.user;
      var t := r.store;
      var a := ShippingAddress(s.nextId, u, form);
      var o := Save(NewOrder(s.nextId + 1, u, a.id, LinesTotal(UserLines(s.cart, u), s.products)), hex);
      assert t.addresses == s.addresses + [a];
      assert t.orders == s.orders + [o];
      assert t.products.Keys == s.products.Keys;
      assert AddressesValid(t.addresses, t.nextId) by {
        forall i, j | 0 <= i < j < |t.addresses| ensures AddressId(t.addresses[i]) != AddressId(t.addresses[j]) {
          assert s.addresses[i] in s.addresses;
          if j < |s.addresses| {
            assert AddressId(s.addresses[i]) != AddressId(s.addresses[j]);
          }
        }
      }
      assert !OrderIdTaken(s, o.orderId);
      assert Distinct(t.orders, OrderPk) by {
        forall i, j | 0 <= i < j < |t.orders| ensures OrderPk(t.orders[i]) != OrderPk(t.orders[j]) {
          assert s.orders[i] in s.orders;
          if j < |s.orders| {
            assert OrderPk(s.orders[i]) != OrderPk(s.orders[j]);
          }
        }
      }
      forall x | x in t.orders ensures exists b :: b in t.addresses && b.id == x.shipping && b.user == x.user {
        if x in s.orders {
          var b :| b in s.addresses && b.id == x.shipping && b.user == x.user;
          assert b in t.addresses;
        } else {
          assert x == o && a in t.addresses;
        }
      }
      assert OrdersValid(t.orders, t.addresses, t.nextId);
    }
  }

  /** Checkout is not idempotent, but repeating it right after a success
      finds the cart empty and changes nothing. */
  lemma CheckoutTwice(s: Store, u: UserId, form: ShippingForm, hex1: string, hex2: string)
    requires Valid(s) && IsUuidHex(hex1) && IsUuidHex(hex2)
    requires Checkout(s, Authenticated(u), form, hex1).outcome == Ok
    ensures var t := Checkout(s, Authenticated(u), form, hex1).store;
            CartRefs(t.cart, t.products) && Checkout(t, Authenticated(u), form, hex2) == Step(t, EmptyCart)
  {
    CheckoutKeepsValid(s, Authenticated(u), form, hex1);
    CheckoutCart(s, u, form, hex1);
  }

  /** Checkout records each sale the way the stock-decrement helper would,
      except that the stock itself is left as it was: the helper is never
      called, so a successful order with stock to spare still leaves the
      stock higher than the helper would. */
  lemma CheckoutSkipsStockDecrement(s: Store, u: UserId, form: ShippingForm, hex: string, p: ProductId)
    requires Valid(s) && IsUuidHex(hex)
    requires Checkout(s, Authenticated(u), form, hex).outcome == Ok
    requires p in s.products && Quantity(s.cart, u, p) <= s.products[p].stock
    ensures var t := Checkout(s, Authenticated(u), form, hex).store;
            var d := DecreaseStock(s.products[p], Quantity(s.cart, u, p));
            && d.applied
            && t.products[p] == d.product.(stock := s.products[p].stock)
            && (Quantity(s.cart, u, p) > 0 ==> t.products[p].stock > d.product.stock)
  {
    CheckoutProduct(s, u, form, hex, p);
  }
}

=== FILE: feedback.dfy ===
/** The feedback view: a logged-in user rates one of their own orders. */
module FeedbackView {
  import opened Tables
  import opened Orders
  import opened Storefront

  /** The position of order row `pk` provided it belongs to user `u`. */
  function OwnedOrderIndex(orders: seq<Order>, u: UserId, pk: RowId): (r: Option<nat>)
    ensures r.Some? ==> r.value < |orders| && orders[r.value].id == pk && orders[r.value].user == u
    ensures r.None? ==> forall o :: o in orders ==> !(o.id == pk && o.user == u)
  {
    Find(orders, (o: Order) => o.id == pk && o.user == u)
  }

  /** Some feedback is already recorded for order row `pk`. */
  predicate HasFeedback(feedback: seq<OrderFeedback>, pk: RowId) {
    exists f :: f in feedback && f.order == pk
  }

  /** submit_feedback. `rating` is the submitted rating already read as a
      number, None when the field is absent or empty; `comment` is "" when
      absent. An anonymous caller is sent to log in; an order that is not the
      caller's is not found; a missing rating or comment is refused. The
      rating column holds non-negative numbers and an order has at most one
      feedback, so a negative rating or a second feedback violates a
      constraint and nothing is kept. Otherwise the feedback is recorded. */
  function SubmitFeedback(s: Store, v: Visitor, pk: RowId, rating: Option<int>, comment: string): (r: Step)
    ensures v.Anonymous? ==> r == Step(s, LoginRequired)
    ensures v.Authenticated? ==>
              (r.outcome == NotFound <==> forall o :: o in s.orders ==> !(o.id == pk && o.user == v.user))
    ensures r.outcome == Invalid <==>
              v.Authenticated? && (exists o :: o in s.orders && o.id == pk && o.user == v.user)
              && (rating.None? || comment == "")
    ensures r.outcome == Ok <==>
              v.Authenticated? && (exists o :: o in s.orders && o.id == pk && o.user == v.user)
              && rating.Some? && rating.value >= 0 && comment != "" && !HasFeedback(s.feedback, pk)
    ensures r.outcome == Ok ==> r.store == s.(feedback := s.feedback + [OrderFeedback(pk, rating.value, comment)])
    ensures r.outcome != Ok ==> r.store == s
  {
    match v
    case Anonymous(_) => Step(s, LoginRequired)
    case Authenticated(u) =>
      match OwnedOrderIndex(s.orders, u, pk)
      case None => Step(s, NotFound)
      case Some(i) =>
        if rating.None? || comment == "" then Step(s, Invalid)
        else if rating.value < 0 || HasFeedback(s.feedback, pk) then Step(s, Conflict)
        else Step(s.(feedback := s.feedback + [OrderFeedback(pk, rating.value, comment)]), Ok)
  }

  /** Submitting feedback keeps the store valid: still one feedback per order. */
  lemma SubmitFeedbackKeepsValid(s: Store, v: Visitor, pk: RowId, rating: Option<int>, comment: string)
    requires Valid(s)
    ensures Valid(SubmitFeedback(s, v, pk, rating, comment).store)
  {
  }

  /** Once an order has feedback, a second submission for it never succeeds
      and changes nothing. */
  lemma SecondFeedbackRejected(s: Store, v: Visitor, pk: RowId, rating1: Option<int>, comment1: string,
                               rating2: Option<int>, comment2: string)
    requires SubmitFeedback(s, v, pk, rating1, comment1).outcome == Ok
    ensures var t := SubmitFeedback(s, v, pk, rating1, comment1).store;
            var r := SubmitFeedback(t, v, pk, rating2, comment2);
            r.outcome != Ok && r.store == t
  {
    var t := SubmitFeedback(s, v, pk, rating1, comment1).store;
    assert t.feedback[|s.feedback|].order == pk;
  }
}

=== FILE: orders.dfy ===
/** Orders and their items: the status choices, the one-time assignment of
    the human-readable order id, and the price snapshot an item carries. */
module Orders {
  import opened Tables
  import Catalog

  /** The five order states an order may be in. */
  datatype Status = Pending | Processing | Shipped | Delivered | Cancelled

  /** The value stored in the status column for each state; it fits the
      column. */
  function StatusCode(s: Status): (code: string)
    ensures 0 < |code| <= 20
  {
    match s
    case Pending => "pending"
    case Processing => "processing"
    case Shipped => "shipped"
    case Delivered => "delivered"
    case Cancelled => "cancelled"
  }

  /** Reads a status column value back; anything but the five codes is
      rejected. */
  function ParseStatus(code: string): (r: Option<Status>)
    ensures r.Some? ==> StatusCode(r.value) == code
  {
    if code == "pending" then Some(Pending)
    else if code == "processing" then Some(Processing)
    else if code == "shipped" then Some(Shipped)
    else if code == "delivered" then Some(Delivered)
    else if code == "cancelled" then Some(Cancelled)
    else None
  }

  /** Every state survives a round trip through its stored code, so a
      status written by the model is always one of the five choices. */
  lemma StatusRoundTrip(s: Status)
    ensures ParseStatus(StatusCode(s)) == Some(s)
  {
  }

  /** The prefix of every generated order id, and the column's capacity. */
  const OrderIdPrefix: string := "TSH"
  const OrderIdMaxLength: nat := 20
  const HexDigits: nat := 12

  predicate IsLowerHexDigit(c: char) {
    '0' <= c <= '9' || 'a' <= c <= 'f'
  }

  predicate IsUpperHexDigit(c: char) {
    '0' <= c <= '9' || 'A' <= c <= 'F'
  }

  /** Twelve lowercase hex digits: the leading part of a random UUID's hex
      form, which is what the generator draws from. */
  predicate IsUuidHex(h: string) {
    |h| == HexDigits && forall i :: 0 <= i < |h| ==> IsLowerHexDigit(h[i])
  }

  /** Upper-casing of one ASCII character. */
  function UpperChar(c: char): (u: char)
    ensures IsLowerHexDigit(c) ==> IsUpperHexDigit(u)
  {
    if 'a' <= c <= 'z' then (c as int - 32) as char else c
  }

  /** Lower-casing of one ASCII character. */
  function LowerChar(c: char): char {
    if 'A' <= c <= 'Z' then (c as int + 32) as char else c
  }

  function Upper(s: string): (u: string)
    ensures |u| == |s|
  {
    seq(|s|, i requires 0 <= i < |s| => UpperChar(s[i]))
  }

  function Lower(s: string): (l: string)
    ensures |l| == |s|
  {
    seq(|s|, i requires 0 <= i < |s| => LowerChar(s[i]))
  }

  /** The order id a save leaves behind: an existing id is kept; an empty
      one becomes the prefix followed by the random digits in upper case. */
  function AssignOrderId(current: string, hex: string): (id: string)
    requires IsUuidHex(hex)
    ensures current != "" ==> id == current
    ensures current == "" ==> |id| == |OrderIdPrefix| + HexDigits <= OrderIdMaxLength
    ensures current == "" ==> id[..|OrderIdPrefix|] == OrderIdPrefix
    ensures current == "" ==> forall i :: |OrderIdPrefix| <= i < |id| ==> IsUpperHexDigit(id[i])
    ensures current == "" ==> Lower(id[|OrderIdPrefix|..]) == hex
    ensures id != ""
  {
    if current == "" then
      var digits := Upper(hex);
      assert Lower(digits) == hex by {
        forall i | 0 <= i < |hex| ensures Lower(digits)[i] == hex[i] {
          assert IsLowerHexDigit(hex[i]);
        }
      }
      var id := OrderIdPrefix + digits;
      assert id[|OrderIdPrefix|..] == digits;
      id
    else
      current
  }

  /** An order row. `shipping` refers to the shipping address captured for it. */
  datatype Order = Order(
    id: RowId,
    orderId: string,
    user: UserId,
    shipping: RowId,
    total: Catalog.Paise,
    status: Status)

  /** Order.save: fills in the order id the first time only. */
  function Save(o: Order, hex: string): (r: Order)
    requires IsUuidHex(hex)
    ensures r.orderId != ""
    ensures o.orderId != "" ==> r == o
    ensures r.(orderId := o.orderId) == o
  {
    o.(orderId := AssignOrderId(o.orderId, hex))
  }

  /** A second save never replaces the id the first one assigned. */
  lemma SaveKeepsOrderId(o: Order, hex1: string, hex2: string)
    requires IsUuidHex(hex1) && IsUuidHex(hex2)
    ensures Save(Save(o, hex1), hex2) == Save(o, hex1)
  {
  }

  /** A freshly created order: no id yet, status pending. */
  function NewOrder(id: RowId, user: UserId, shipping: RowId, total: Catalog.Paise): (o: Order)
    ensures o.orderId == "" && o.status == Pending
  {
    Order(id, "", user, shipping, total, Pending)
  }

  /** An order item. `price` is the unit price copied when the order was
      placed, not a reference to the product's current price. */
  datatype OrderItem = OrderItem(order: RowId, product: Catalog.ProductId, quantity: nat, price: Catalog.Paise)

  /** OrderItem.total_price. */
  function ItemTotal(item: OrderItem): (r: Catalog.Paise)
    ensures r == item.price * item.quantity
  {
    Catalog.LineTotal(item.price, item.quantity)
  }

  /** The sum of the item totals. */
  function ItemsTotal(items: seq<OrderItem>): Catalog.Paise {
    if items == [] then 0 else ItemTotal(items[0]) + ItemsTotal(items[1..])
  }
}

=== FILE: storefront.dfy ===
/** The storefront's state: the tables the views read and write, who is
    asking, what a request reports back, and the invariant every request
    keeps. */
module Storefront {
  import opened Tables
  import opened Catalog
  import opened Orders

  /** A session key; an existing session never has an empty key. */
  type SessionKey = s: string | |s| > 0 witness "s"

  /** The caller of a request: a logged-in user, or an anonymous visitor
      who may or may not have a session yet. */
  datatype Visitor = Authenticated(user: UserId) | Anonymous(session: Option<SessionKey>)

  /** Whose wishlist an entry is on. */
  datatype Owner = User(id: UserId) | Session(key: SessionKey)

  datatype CartLine = CartLine(id: RowId, user: UserId, product: ProductId, quantity: nat)

  datatype WishlistEntry = WishlistEntry(id: RowId, owner: Owner, product: ProductId)

  /** The six shipping fields of the checkout form; an absent field is "". */
  datatype ShippingForm = ShippingForm(
    fullName: string,
    phone: string,
    address: string,
    city: string,
    state: string,
    pincode: string)

  datatype ShippingAddress = ShippingAddress(id: RowId, user: UserId, form: ShippingForm)

  datatype OrderFeedback = OrderFeedback(order: RowId, rating: int, comment: string)

  /** Every table the core touches. Rows are kept in primary-key order;
      `nextId` is the next unused primary key. */
  datatype Store = Store(
    products: map<ProductId, Product>,
    cart: seq<CartLine>,
    wishlist: seq<WishlistEntry>,
    addresses: seq<ShippingAddress>,
    orders: seq<Order>,
    items: seq<OrderItem>,
    feedback: seq<OrderFeedback>,
    nextId: RowId)

  /** What a request reports: success, an already-present wishlist entry, a
      missing or foreign row, an empty cart at checkout, missing form
      fields, an anonymous caller on a login-only view, or a violated
      uniqueness constraint. */
  datatype Outcome = Ok | AlreadyPresent | NotFound | EmptyCart | Invalid | LoginRequired | Conflict

  datatype Step = Step(store: Store, outcome: Outcome)

  function LineId(l: CartLine): RowId { l.id }
  function LineProduct(l: CartLine): ProductId { l.product }
  function EntryId(e: WishlistEntry): RowId { e.id }

  function AddressId(a: ShippingAddress): RowId { a.id }

  function OrderPk(o: Order): RowId { o.id }
  function EntryProduct(e: WishlistEntry): ProductId { e.product }

  /** The application keeps at most one cart line per (user, product). */
  predicate CartKeysUnique(cart: seq<CartLine>) {
    forall a, b :: a in cart && b in cart && a.user == b.user && a.product == b.product ==> a.id == b.id
  }

  predicate CartUnique(cart: seq<CartLine>) {
    Distinct(cart, LineId) && CartKeysUnique(cart)
  }

  predicate CartRefs(cart: seq<CartLine>, products: map<ProductId, Product>) {
    forall l :: l in cart ==> l.product in products
  }

  predicate CartValid(cart: seq<CartLine>, products: map<ProductId, Product>, nextId: RowId) {
    && CartRefs(cart, products)
    && (forall l :: l in cart ==> l.quantity >= 1 && l.id < nextId)
    && CartUnique(cart)
  }

  /** The (owner, product) uniqueness constraint of the wishlist table. */
  predicate WishlistKeysUnique(wishlist: seq<WishlistEntry>) {
    forall a, b :: a in wishlist && b in wishlist && a.owner == b.owner && a.product == b.product ==> a.id == b.id
  }

  predicate WishlistValid(wishlist: seq<WishlistEntry>, products: map<ProductId, Product>, nextId: RowId) {
    && (forall e :: e in wishlist ==> e.product in products && e.id < nextId)
    && Distinct(wishlist, EntryId)
    && WishlistKeysUnique(wishlist)
  }

  /** Shipping addresses have distinct primary keys already in use. */
  predicate AddressesValid(addresses: seq<ShippingAddress>, nextId: RowId) {
    && (forall a :: a in addresses ==> a.id < nextId)
    && Distinct(addresses, AddressId)
  }

  /** Every order has an id, ids are unique, primary keys are distinct and
      in use, and every order points at a shipping address of its user. */
  predicate OrdersValid(orders: seq<Order>, addresses: seq<ShippingAddress>, nextId: RowId) {
    && (forall o :: o in orders ==> o.id < nextId && o.orderId != "")
    && (forall a, b :: a in orders && b in orders && a.orderId == b.orderId ==> a == b)
    && Distinct(orders, OrderPk)
    && (forall o :: o in orders ==> exists a :: a in addresses && a.id == o.shipping && a.user == o.user)
  }

  /** At most one feedback per order. */
  predicate FeedbackValid(feedback: seq<OrderFeedback>) {
    forall a, b :: a in feedback && b in feedback && a.order == b.order ==> a == b
  }

  predicate Valid(s: Store) {
    && CartValid(s.cart, s.products, s.nextId)
    && WishlistValid(s.wishlist, s.products, s.nextId)
    && AddressesValid(s.addresses, s.nextId)
    && OrdersValid(s.orders, s.addresses, s.nextId)
    && FeedbackValid(s.feedback)
  }

  /** The store with no rows at all satisfies the invariant. */
  lemma EmptyStoreValid(products: map<ProductId, Product>)
    ensures Valid(Store(products, [], [], [], [], [], [], 0))
  {
  }

  /** A user's cart lines (the cart filtered by user), in table order. */
  function UserLines(cart: seq<CartLine>, u: UserId): (r: seq<CartLine>)
    ensures forall l :: l in r <==> l in cart && l.user == u
    ensures Distinct(cart, LineId) ==> Distinct(r, LineId)
  {
    var mine := (l: CartLine) => l.user == u;
    FilterKeepsDistinct(cart, mine, LineId);
    Filter(cart, mine)
  }

  /** The cart with every line of user `u` deleted. */
  function OtherLines(cart: seq<CartLine>, u: UserId): (r: seq<CartLine>)
    ensures forall l :: l in r <==> l in cart && l.user != u
    ensures Distinct(cart, LineId) ==> Distinct(r, LineId)
  {
    var others := (l: CartLine) => l.user != u;
    FilterKeepsDistinct(cart, others, LineId);
    Filter(cart, others)
  }

  /** The cart with the row `id` deleted. */
  function WithoutLine(cart: seq<CartLine>, id: RowId): (r: seq<CartLine>)
    ensures forall l :: l in r <==> l in cart && l.id != id
    ensures Distinct(cart, LineId) ==> Distinct(r, LineId)
  {
    var keep := (l: CartLine) => l.id != id;
    FilterKeepsDistinct(cart, keep, LineId);
    Filter(cart, keep)
  }

  /** With at most one line per (user, product), a user's lines name each
      product at most once. */
  lemma UserLinesDistinctProducts(cart: seq<CartLine>, u: UserId)
    requires CartUnique(cart)
    ensures Distinct(UserLines(cart, u), LineProduct)
  {
    var lines := UserLines(cart, u);
    forall i, j | 0 <= i < j < |lines| ensures LineProduct(lines[i]) != LineProduct(lines[j]) {
      assert lines[i] in lines && lines[j] in lines;
      assert LineId(lines[i]) != LineId(lines[j]);
    }
  }

  /** The position of user `u`'s line for product `p`, if any. */
  function KeyIndex(cart: seq<CartLine>, u: UserId, p: ProductId): (r: Option<nat>)
    ensures r.Some? ==> r.value < |cart| && cart[r.value].user == u && cart[r.value].product == p
    ensures r.None? ==> forall l :: l in cart ==> !(l.user == u && l.product == p)
  {
    Find(cart, (l: CartLine) => l.user == u && l.product == p)
  }

  /** The position of row `id` provided it belongs to user `u`. */
  function OwnedIndex(cart: seq<CartLine>, u: UserId, id: RowId): (r: Option<nat>)
    ensures r.Some? ==> r.value < |cart| && cart[r.value].user == u && cart[r.value].id == id
    ensures r.None? ==> forall l :: l in cart ==> !(l.user == u && l.id == id)
  {
    Find(cart, (l: CartLine) => l.user == u && l.id == id)
  }

  /** The quantity of product `p` in user `u`'s cart; 0 when absent. This
      is the abstract view of the cart as a (user, product) -> quantity map. */
  function Quantity(cart: seq<CartLine>, u: UserId, p: ProductId): nat {
    match KeyIndex(cart, u, p)
    case None => 0
    case Some(i) => cart[i].quantity
  }

  /** Two lines with the same key are the same line. */
  lemma SameKeySameLine(cart: seq<CartLine>, i: nat, j: nat)
    requires CartUnique(cart)
    requires i < |cart| && j < |cart|
    requires cart[i].user == cart[j].user && cart[i].product == cart[j].product
    ensures i == j
  {
    assert cart[i] in cart && cart[j] in cart;
    assert LineId(cart[i]) == LineId(cart[j]);
  }

  /** With unique keys, the quantity of a key is that of the one line
      holding it. */
  lemma QuantityOfLine(cart: seq<CartLine>, l: CartLine)
    requires CartUnique(cart) && l in cart
    ensures Quantity(cart, l.user, l.product) == l.quantity
  {
    var j :| 0 <= j < |cart| && cart[j] == l;
    var i := KeyIndex(cart, l.user, l.product).value;
    SameKeySameLine(cart, i, j);
  }

  lemma QuantityOfAbsent(cart: seq<CartLine>, u: UserId, p: ProductId)
    requires forall l :: l in cart ==> !(l.user == u && l.product == p)
    ensures Quantity(cart, u, p) == 0
  {
  }

  /** Two carts with the same lines under the key of (u, p) agree on its
      quantity. */
  lemma QuantityAgrees(c1: seq<CartLine>, c2: seq<CartLine>, u: UserId, p: ProductId)
    requires CartUnique(c1) && CartUnique(c2)
    requires forall l: CartLine :: l.user == u && l.product == p ==> (l in c1 <==> l in c2)
    ensures Quantity(c1, u, p) == Quantity(c2, u, p)
  {
    var k1, k2 := KeyIndex(c1, u, p), KeyIndex(c2, u, p);
    if k1.Some? {
      assert c1[k1.value] in c2;
      QuantityOfLine(c1, c1[k1.value]);
      QuantityOfLine(c2, c1[k1.value]);
    }
  }

  /** The total of some cart lines at the products' current special prices:
      the sum of Cart.total_price over the lines. */
  function LinesTotal(lines: seq<CartLine>, products: map<ProductId, Product>): Paise
    requires CartRefs(lines, products)
  {
    if lines == [] then 0
    else LineTotal(products[lines[0].product].specialPrice, lines[0].quantity) + LinesTotal(lines[1..], products)
  }

  /** No line costs more than the total of all the lines, and the total is
      zero exactly when every line is free or empty. */
  lemma {:induction false} LinesTotalBounds(lines: seq<CartLine>, products: map<ProductId, Product>)
    requires CartRefs(lines, products)
    ensures forall l :: l in lines ==> LineTotal(products[l.product].specialPrice, l.quantity) <= LinesTotal(lines, products)
    ensures LinesTotal(lines, products) == 0 <==>
              forall l :: l in lines ==> products[l.product].specialPrice == 0 || l.quantity == 0
  {
    if lines != [] {
      LinesTotalBounds(lines[1..], products);
      assert forall l :: l in lines ==> l == lines[0] || l in lines[1..];
    }
  }

  lemma {:induction false} LinesTotalAppend(a: seq<CartLine>, b: seq<CartLine>, products: map<ProductId, Product>)
    requires CartRefs(a, products) && CartRefs(b, products)
    ensures LinesTotal(a + b, products) == LinesTotal(a, products) + LinesTotal(b, products)
  {
    if a != [] {
      assert (a + b)[1..] == a[1..] + b;
      LinesTotalAppend(a[1..], b, products);
    } else {
      assert a + b == b;
    }
  }

  /** The wishlist owner a visitor acts as, if it has one yet. */
  function OwnerOf(v: Visitor): (o: Option<Owner>)
    ensures v.Authenticated? ==> o == Some(User(v.user))
    ensures v.Anonymous? ==> (o.Some? <==> v.session.Some?)
    ensures v.Anonymous? && v.session.Some? ==> o == Some(Session(v.session.value))
  {
    match v
    case Authenticated(u) => Some(User(u))
    case Anonymous(None) => None
    case Anonymous(Some(k)) => Some(Session(k))
  }

  /** The wishlist entries of owner `o`, in table order. */
  function OwnerEntries(wishlist: seq<WishlistEntry>, o: Owner): (r: seq<WishlistEntry>)
    ensures forall e :: e in r <==> e in wishlist && e.owner == o
    ensures Distinct(wishlist, EntryId) ==> Distinct(r, EntryId)
  {
    var mine := (e: WishlistEntry) => e.owner == o;
    FilterKeepsDistinct(wishlist, mine, EntryId);
    Filter(wishlist, mine)
  }

  /** With one entry per (owner, product), an owner's entries name each
      product at most once. */
  lemma OwnerEntriesDistinctProducts(wishlist: seq<WishlistEntry>, o: Owner)
    requires Distinct(wishlist, EntryId) && WishlistKeysUnique(wishlist)
    ensures Distinct(OwnerEntries(wishlist, o), EntryProduct)
  {
    var entries := OwnerEntries(wishlist, o);
    forall i, j | 0 <= i < j < |entries| ensures EntryProduct(entries[i]) != EntryProduct(entries[j]) {
      assert entries[i] in entries && entries[j] in entries;
      assert EntryId(entries[i]) != EntryId(entries[j]);
    }
  }

  /** The wishlist with row `id` deleted. */
  function WithoutEntry(wishlist: seq<WishlistEntry>, id: RowId): (r: seq<WishlistEntry>)
    ensures forall e :: e in r <==> e in wishlist && e.id != id
    ensures Distinct(wishlist, EntryId) ==> Distinct(r, EntryId)
  {
    var keep := (e: WishlistEntry) => e.id != id;
    FilterKeepsDistinct(wishlist, keep, EntryId);
    Filter(wishlist, keep)
  }
}

=== FILE: tables.dfy ===
/** Generic helpers over the rows of a table. A table is a sequence of rows in
    primary-key order; a queryset filter keeps the rows a predicate accepts,
    in the same order. */
module Tables {

  datatype Option<T> = None | Some(value: T)

  /** A primary key. */
  type RowId = nat

  /** The primary key of a registered user. */
  type UserId = RowId

  /** The rows of `s` accepted by `f`, in their original order. */
  function Filter<T(!new)>(s: seq<T>, f: T -> bool): (r: seq<T>)
    ensures |r| <= |s|
    ensures forall x :: x in r <==> x in s && f(x)
  {
    if s == [] then []
    else if f(s[0]) then [s[0]] + Filter(s[1..], f)
    else Filter(s[1..], f)
  }

  /** The position of some row accepted by `f` (a queryset `get`). */
  function Find<T>(s: seq<T>, f: T -> bool): (r: Option<nat>)
    ensures r.Some? ==> r.value < |s| && f(s[r.value])
    ensures r.None? <==> forall i :: 0 <= i < |s| ==> !f(s[i])
  {
    if s == [] then None
    else if f(s[0]) then Some(0)
    else match Find(s[1..], f)
      case None => None
      case Some(i) => Some(i + 1)
  }

  /** No two rows share a `key` (a unique column). */
  predicate Distinct<T, K(==)>(s: seq<T>, key: T -> K) {
    forall i, j :: 0 <= i < j < |s| ==> key(s[i]) != key(s[j])
  }

  lemma {:induction false} FilterKeepsDistinct<T(!new), K>(s: seq<T>, f: T -> bool, key: T -> K)
    ensures Distinct(s, key) ==> Distinct(Filter(s, f), key)
  {
    if s != [] && Distinct(s, key) {
      var t := s[1..];
      assert Distinct(t, key) by {
        forall i, j | 0 <= i < j < |t| ensures key(t[i]) != key(t[j]) {
          assert t[i] == s[i + 1] && t[j] == s[j + 1];
        }
      }
      FilterKeepsDistinct(t, f, key);
      if f(s[0]) {
        var r := Filter(s, f);
        var ft := Filter(t, f);
        assert r == [s[0]] + ft;
        forall i, j | 0 <= i < j < |r| ensures key(r[i]) != key(r[j]) {
          if i == 0 {
            assert r[j] == ft[j - 1];
            assert r[j] in t;
            var k :| 0 <= k < |t| && t[k] == r[j];
            assert t[k] == s[k + 1];
          } else {
            assert r[i] == ft[i - 1] && r[j] == ft[j - 1];
          }
        }
      }
    }
  }

  lemma {:induction false} FilterAppend<T(!new)>(s: seq<T>, x: T, f: T -> bool)
    ensures Filter(s + [x], f) == Filter(s, f) + (if f(x) then [x] else [])
  {
    if s == [] {
      assert s + [x] == [x];
    } else {
      assert (s + [x])[1..] == s[1..] + [x];
      FilterAppend(s[1..], x, f);
    }
  }


  /** The set of keys of some rows. */
  function Keys<T, K>(s: seq<T>, key: T -> K): (r: set<K>)
    ensures forall x :: x in s ==> key(x) in r
    ensures forall k :: k in r ==> exists x :: x in s && key(x) == k
  {
    if s == [] then {} else {key(s[0])} + Keys(s[1..], key)
  }

  /** Rows with pairwise distinct keys have as many keys as rows. */
  lemma {:induction false} DistinctKeysCount<T, K>(s: seq<T>, key: T -> K)
    requires Distinct(s, key)
    ensures |Keys(s, key)| == |s|
  {
    if s != [] {
      var rest := s[1..];
      assert Distinct(rest, key) by {
        forall a, b | 0 <= a < b < |rest| ensures key(rest[a]) != key(rest[b]) {
          assert rest[a] == s[a + 1] && rest[b] == s[b + 1];
        }
      }
      DistinctKeysCount(rest, key);
      forall y | y in rest ensures key(y) != key(s[0]) {
        var j :| 0 <= j < |rest| && rest[j] == y;
        assert key(s[0]) != key(s[j + 1]);
      }
      assert key(s[0]) !in Keys(rest, key);
    }
  }

  /** Keeping only what no element satisfies keeps nothing. */
  lemma {:induction false} FilterNone<T(!new)>(s: seq<T>, f: T -> bool)
    requires forall x :: x in s ==> !f(x)
    ensures Filter(s, f) == []
  {
    if s != [] {
      FilterNone(s[1..], f);
    }
  }

  /** Filtering twice, where the second predicate implies the first, is
      filtering once with the second. */
  lemma {:induction false} FilterFilter<T(!new)>(s: seq<T>, g: T -> bool, f: T -> bool)
    requires forall x :: f(x) ==> g(x)
    ensures Filter(Filter(s, g), f) == Filter(s, f)
  {
    if s != [] {
      FilterFilter(s[1..], g, f);
      if g(s[0]) {
        assert Filter(s, g) == [s[0]] + Filter(s[1..], g);
        assert ([s[0]] + Filter(s[1..], g))[1..] == Filter(s[1..], g);
      }
    }
  }
}

=== FILE: wishlist.dfy ===
/** The wishlist views. A wishlist belongs to a logged-in user or, for an
    anonymous visitor, to the visitor's session; adding is get-or-create and
    removing is scoped to the caller's own entries. */
module WishlistViews {
  import opened Tables
  import opened Catalog
  import opened Storefront

  /** The result of add_to_wishlist: the store, the outcome, and the visitor
      afterwards, which holds a new session if one had to be created. */
  datatype WishlistAdd = WishlistAdd(store: Store, outcome: Outcome, visitor: Visitor)

  /** The owner an add acts as. An anonymous visitor without a session gets
      one, with key `newKey`, and acts as that session. */
  function ResolveOwner(v: Visitor, newKey: SessionKey): (r: (Owner, Visitor))
    ensures OwnerOf(r.1) == Some(r.0)
    ensures OwnerOf(v).Some? ==> r == (OwnerOf(v).value, v)
    ensures OwnerOf(v).None? ==> r == (Session(newKey), Anonymous(Some(newKey)))
  {
    match v
    case Authenticated(u) => (User(u), v)
    case Anonymous(None) => (Session(newKey), Anonymous(Some(newKey)))
    case Anonymous(Some(k)) => (Session(k), v)
  }

  /** The position of owner `o`'s entry for product `p`, if any. */
  function EntryIndex(wishlist: seq<WishlistEntry>, o: Owner, p: ProductId): (r: Option<nat>)
    ensures r.Some? ==> r.value < |wishlist| && wishlist[r.value].owner == o && wishlist[r.value].product == p
    ensures r.None? ==> forall e :: e in wishlist ==> !(e.owner == o && e.product == p)
  {
    Find(wishlist, (e: WishlistEntry) => e.owner == o && e.product == p)
  }

  /** add_to_wishlist: an unknown product is not found (and no session is
      created); otherwise the entry for (owner, product) is created, or
      reported as already present with nothing changed. */
  function AddToWishlist(s: Store, v: Visitor, p: ProductId, newKey: SessionKey): (r: WishlistAdd)
    ensures p !in s.products ==> r == WishlistAdd(s, NotFound, v)
    ensures p in s.products ==> OwnerOf(r.visitor).Some? && (OwnerOf(v).Some? ==> r.visitor == v)
    ensures p in s.products && v == Anonymous(None) ==> r.visitor == Anonymous(Some(newKey))
    ensures p in s.products ==>
              && (r.outcome == Ok || r.outcome == AlreadyPresent)
              && (r.outcome == Ok <==>
                    forall e :: e in s.wishlist ==> !(e.owner == OwnerOf(r.visitor).value && e.product == p))
    ensures r.outcome == Ok ==>
              r.store == s.(wishlist := s.wishlist + [WishlistEntry(s.nextId, OwnerOf(r.visitor).value, p)],
                            nextId := s.nextId + 1)
    ensures r.outcome != Ok ==> r.store == s
  {
    if p !in s.products then WishlistAdd(s, NotFound, v)
    else
      var (o, v') := ResolveOwner(v, newKey);
      match EntryIndex(s.wishlist, o, p)
      case Some(_) => WishlistAdd(s, AlreadyPresent, v')
      case None =>
        WishlistAdd(s.(wishlist := s.wishlist + [WishlistEntry(s.nextId, o, p)], nextId := s.nextId + 1), Ok, v')
  }

  /** An add keeps the store valid: still one entry per (owner, product). */
  lemma AddToWishlistKeepsValid(s: Store, v: Visitor, p: ProductId, newKey: SessionKey)
    requires Valid(s)
    ensures Valid(AddToWishlist(s, v, p, newKey).store)
  {
    var r := AddToWishlist(s, v, p, newKey);
    if r.outcome == Ok {
      var x := WishlistEntry(s.nextId, OwnerOf(r.visitor).value, p);
      var w := s.wishlist + [x];
      assert r.store.wishlist == w;
      forall a, b | 0 <= a < b < |w| ensures EntryId(w[a]) != EntryId(w[b]) {
        if b == |s.wishlist| {
          assert s.wishlist[a] in s.wishlist;
        } else {
          assert EntryId(s.wishlist[a]) != EntryId(s.wishlist[b]);
        }
      }
      forall l | l in s.cart ensures l.id < r.store.nextId {
      }
    }
  }

  /** Adding the same product for the same visitor twice: the second add
      reports it as already present and changes nothing. */
  lemma AddToWishlistTwice(s: Store, v: Visitor, p: ProductId, newKey1: SessionKey, newKey2: SessionKey)
    requires p in s.products
    ensures var r1 := AddToWishlist(s, v, p, newKey1);
            var r2 := AddToWishlist(r1.store, r1.visitor, p, newKey2);
            r2.outcome == AlreadyPresent && r2.store == r1.store && r2.visitor == r1.visitor
  {
    var r1 := AddToWishlist(s, v, p, newKey1);
    var o := OwnerOf(r1.visitor).value;
    if r1.outcome == Ok {
      var x := WishlistEntry(s.nextId, o, p);
      assert x in r1.store.wishlist;
    } else {
      var e := s.wishlist[EntryIndex(s.wishlist, o, p).value];
      assert e in r1.store.wishlist;
    }
  }

  /** The position of row `id` provided it is on owner `o`'s wishlist. */
  function OwnedEntryIndex(wishlist: seq<WishlistEntry>, o: Owner, id: RowId): (r: Option<nat>)
    ensures r.Some? ==> r.value < |wishlist| && wishlist[r.value].owner == o && wishlist[r.value].id == id
    ensures r.None? ==> forall e :: e in wishlist ==> !(e.owner == o && e.id == id)
  {
    Find(wishlist, (e: WishlistEntry) => e.owner == o && e.id == id)
  }

  /** remove_from_wishlist, with the lookup scoped to the caller's own
      wishlist: a visitor without a session owns nothing, and an entry of
      any other owner is not found. */
  function RemoveFromWishlist(s: Store, v: Visitor, id: RowId): (r: Step)
    ensures r.outcome == Ok || r.outcome == NotFound
    ensures r.outcome == NotFound <==>
              (OwnerOf(v).None? || forall e :: e in s.wishlist ==> !(e.owner == OwnerOf(v).value && e.id == id))
    ensures r.outcome == NotFound ==> r.store == s
    ensures r.outcome == Ok ==> forall e :: e in r.store.wishlist <==> e in s.wishlist && e.id != id
    ensures r.store.(wishlist := s.wishlist) == s
  {
    match OwnerOf(v)
    case None => Step(s, NotFound)
    case Some(o) =>
      match OwnedEntryIndex(s.wishlist, o, id)
      case None => Step(s, NotFound)
      case Some(_) => Step(s.(wishlist := WithoutEntry(s.wishlist, id)), Ok)
  }

  /** Removing someone else's entry fails as not found and the entry stays. */
  lemma RemoveForeignEntryFails(s: Store, v: Visitor, e: WishlistEntry)
    requires Valid(s) && e in s.wishlist && OwnerOf(v) != Some(e.owner)
    ensures RemoveFromWishlist(s, v, e.id).outcome == NotFound
    ensures e in RemoveFromWishlist(s, v, e.id).store.wishlist
  {
    if OwnerOf(v).Some? {
      forall f | f in s.wishlist ensures !(f.owner == OwnerOf(v).value && f.id == e.id) {
        if f.id == e.id {
          var i :| 0 <= i < |s.wishlist| && s.wishlist[i] == f;
          var j :| 0 <= j < |s.wishlist| && s.wishlist[j] == e;
          assert EntryId(s.wishlist[i]) == EntryId(s.wishlist[j]);
        }
      }
    }
  }

  /** Removing keeps the store valid. */
  lemma RemoveFromWishlistKeepsValid(s: Store, v: Visitor, id: RowId)
    requires Valid(s)
    ensures Valid(RemoveFromWishlist(s, v, id).store)
  {
  }

  /** The session-key column of an entry's row: NULL (None) for an entry of
      a registered user. */
  function SessionColumn(o: Owner): (k: Option<SessionKey>)
    ensures k.None? <==> o.User?
  {
    match o
    case User(_) => None
    case Session(key) => Some(key)
  }

  /** remove_from_wishlist as written: an anonymous visitor's lookup compares
      the session-key column with the visitor's session key even when the
      visitor has none, and the database reads a comparison with None as
      IS NULL. */
  function RemoveFromWishlistAsWritten(s: Store, v: Visitor, id: RowId): (r: Step)
    ensures r.outcome == Ok || r.outcome == NotFound
    ensures r.outcome == NotFound ==> r.store == s
    ensures r.outcome == Ok ==> forall e :: e in r.store.wishlist <==> e in s.wishlist && e.id != id
  {
    var i := match v
      case Authenticated(u) => Find(s.wishlist, (e: WishlistEntry) => e.id == id && e.owner == User(u))
      case Anonymous(key) => Find(s.wishlist, (e: WishlistEntry) => e.id == id && SessionColumn(e.owner) == key);
    match i
    case None => Step(s, NotFound)
    case Some(_) => Step(s.(wishlist := WithoutEntry(s.wishlist, id)), Ok)
  }

  /** For a logged-in user, or an anonymous visitor with a session, the
      code as written agrees with the owner-scoped removal. */
  lemma AsWrittenAgreesWithSession(s: Store, v: Visitor, id: RowId)
    requires v.Authenticated? || v.session.Some?
    ensures RemoveFromWishlistAsWritten(s, v, id) == RemoveFromWishlist(s, v, id)
  {
    var o := OwnerOf(v).value;
    var f1 := (e: WishlistEntry) => e.owner == o && e.id == id;
    match v
    case Authenticated(u) =>
      var f2 := (e: WishlistEntry) => e.id == id && e.owner == User(u);
      assert Find(s.wishlist, f2).None? <==> Find(s.wishlist, f1).None?;
    case Anonymous(key) =>
      var f2 := (e: WishlistEntry) => e.id == id && SessionColumn(e.owner) == key;
      forall e ensures f1(e) == f2(e) {
        if SessionColumn(e.owner) == key {
          assert e.owner == Session(key.value);
        }
      }
      assert Find(s.wishlist, f2).None? <==> Find(s.wishlist, f1).None?;
  }

  /** The discrepancy: an anonymous visitor with no session at all deletes
      any registered user's entry by its row id, where the owner-scoped
      removal reports not found and keeps it. */
  lemma AsWrittenDeletesUserEntry(s: Store, e: WishlistEntry)
    requires e in s.wishlist && e.owner.User?
    ensures RemoveFromWishlistAsWritten(s, Anonymous(None), e.id).outcome == Ok
    ensures e !in RemoveFromWishlistAsWritten(s, Anonymous(None), e.id).store.wishlist
    ensures RemoveFromWishlist(s, Anonymous(None), e.id) == Step(s, NotFound)
  {
    var f := (x: WishlistEntry) => x.id == e.id && SessionColumn(x.owner) == None;
    var j :| 0 <= j < |s.wishlist| && s.wishlist[j] == e;
    assert f(s.wishlist[j]);
  }

  /** A concrete instance: user 7's entry, row 1, is deleted by a visitor
      with no session. */
  lemma AsWrittenCounterexample()
    ensures var s := Store(map[0 := Product(0, 1000, 800, 5, 0, true)], [], [WishlistEntry(1, User(7), 0)],
                           [], [], [], [], 2);
            && Valid(s)
            && RemoveFromWishlistAsWritten(s, Anonymous(None), 1).store.wishlist == []
            && RemoveFromWishlist(s, Anonymous(None), 1).store.wishlist == [WishlistEntry(1, User(7), 0)]
  {
    var s := Store(map[0 := Product(0, 1000, 800, 5, 0, true)], [], [WishlistEntry(1, User(7), 0)],
                   [], [], [], [], 2);
    AsWrittenDeletesUserEntry(s, WishlistEntry(1, User(7), 0));
    var t := RemoveFromWishlistAsWritten(s, Anonymous(None), 1).store;
    assert |t.wishlist| <= 1;
  }
}
